=== FILE: README.md ===
# libdprt-sprat real-time data reduction front end, in Dafny

This project models `c/dprt.c` of the Liverpool Telescope SPRAT data
pipeline library (libdprt-sprat). The file is the C layer behind the Java
`DpRtLibrary`. It brings the reduction engine up and down
(`DpRt_Initialise`, `DpRt_Shutdown`), reduces calibration and exposure
frames (`DpRt_Calibrate_Reduce`, `DpRt_Expose_Reduce`), and builds master
bias and flat frames (`DpRt_Make_Master_Bias`, `DpRt_Make_Master_Flat`).

When the `dprt.fake` property is set, the two reductions run stand-in
pipelines instead of the engine: `Calibrate_Reduce_Fake` and
`Expose_Reduce_Fake`. Each stand-in does the following, in order:

- resets the abort flag;
- for an exposure, reads the four focus-model properties;
- validates the FITS file: open, BITPIX = 16, NAXIS = 2, NAXIS1, NAXIS2, TELFOCUS for an exposure, allocate, read, close;
- polls the abort flag;
- scans the 16-bit pixels in row-major order, computing the mean and peak for a calibration or the first brightest pixel for an exposure;
- frees the pixel buffer;
- for an exposure, polls the abort flag again;
- reports the input filename as the output filename.

Each failure point sets its own error number: the validation steps use 23..32 for calibration and 33..43 for an exposure, and the later failures (aborts, a failed filename allocation) use 1, 2, 3, 4, 44 and 45.

Every collaborator the C code calls but cannot see is an oracle bundled in an
`Environment` (types.dfy): the property store, CFITSIO, malloc, the abort
flag, `rand()` and the engine. The abort flag is a sequence of answers, one
per poll. Every public operation is a pure function returning an `Outcome`
(a `Status`, without out-parameters, when the C function has none),
which holds four things:

- the C return value;
- the final values of its out-parameters;
- the shared error record;
- the ordered trace of the calls it made.

The trace is what the resource properties are stated over: the buffer is freed
once, no engine call is made in stand-in mode, and the file is not closed after
a header failure.

| file | module | models |
|---|---|---|
| types.dfy | `Types` | oracles, events, out-parameter records |
| abort.dfy | `Abort` | the abort-poll oracle |
| fits.dfy | `Fits` | the validation sequence and its error numbers |
| statistics.dfy | `Statistics` | sum, peak, mean, brightest pixel; the two row-major scans as loops |
| seeing.dfy | `Seeing` | the `telFocus` test and the simulated seeing |
| fake.dfy | `FakePipeline` | `Calibrate_Reduce_Fake`, `Expose_Reduce_Fake` |
| dispatch.dfy | `Dispatch` | the four reduction entry points |
| lifecycle.dfy | `Lifecycle` | `DpRt_Initialise`, `DpRt_Shutdown` |

On failure the C code does not clear every output:

- A calibration stand-in that fails validation keeps whatever `output_filename` held.
- A property lookup that fails in a dispatcher leaves every out-parameter untouched.
- An exposure aborted after the scan keeps the brightest pixel it found.

`DpRt_Shutdown` tests the opposite engine status from every other engine call (see Findings).

## Model

| member | source | states |
|---|---|---|
| Fits.ErrorCode | c/dprt.c:447-535 | each failure point's error number is the pipeline's first number (23 for calibrate, 33 for expose) plus its position in the sequence, so calibrate uses 23..32 and expose 33..43 |
| Fits.ErrorCodeIdentifiesStep | c/dprt.c:664-761 | no two validation failure points, in either pipeline, share an error number |
| FakePipeline.ErrorNumbersDistinct | c/dprt.c:436-826 | the six error numbers set after validation (1, 2, 3, 4, 44, 45) differ from each other and from every validation failure's number |
| Fits.ReadHeader | c/dprt.c:447-503 | the header checks pass exactly when the file opens, BITPIX is 16, NAXIS is 2 and NAXIS1, NAXIS2 (and TELFOCUS for an exposure) can be read, and then yield those values |
| Fits.HeaderTrace | c/dprt.c:447-503 | the file is opened first, then the keys are read in the order BITPIX, NAXIS, NAXIS1, NAXIS2, TELFOCUS, all of them when the header is good, and the reads stop at the key that fails |
| Fits.KeysAttempted | c/dprt.c:447-503 | the header checks read every key of a good header, none when the open fails, and otherwise stop at the key named by the reported failure |
| Fits.HeaderTraceStopsAtFailure | c/dprt.c:447-503 | a file that does not open gives the open call alone; any other header failure's last call reads the key that failed |
| Fits.LoadPixels | c/dprt.c:505-535 | after the header: on success the image is the file's NAXIS1 x NAXIS2 pixels and the buffer is held; on any failure the buffer is freed exactly as often as it was allocated; the file is closed only once the pixels were read |
| Fits.LoadImage | c/dprt.c:664-761 | the validation sequence: on success the image is the file's and well formed, and an exposure has its TELFOCUS; the header calls come first; only the FITS library and malloc are called |
| Fits.LoadImageBuffer | c/dprt.c:505-535 | the pixel buffer is allocated only after every header check passed, at most once, and a failing sequence frees it exactly once |
| Fits.LoadImageClosesAfterRead | c/dprt.c:456-503 | the file is closed only when the pixels were read, so a failure at any earlier step leaves the handle open |
| Fits.ReadHeaderStopsAtFirstFailure | c/dprt.c:664-729 | the header checks fail exactly when some header step fails, and with the first failing one |
| Fits.LoadImageStopsAtFirstFailure | c/dprt.c:447-535 | the whole sequence fails exactly when some step fails, and with the first failing step in the fixed order |
| Fits.LoadImageSucceeds | c/dprt.c:664-761 | the sequence succeeds exactly when every step passes, that is, when no step fails |
| Abort.FirstAbort | c/dprt.c:537-576 | the first poll in a range that answers TRUE; `None` exactly when none does |
| Statistics.Peak | c/dprt.c:553-561 | no pixel exceeds the maximum the scan keeps |
| Statistics.PeakOccurs | c/dprt.c:553-561 | the maximum of a non-empty frame is one of its pixels, so it is the largest pixel |
| Statistics.MeanIsAverage | c/dprt.c:579 | the mean times NAXIS1*NAXIS2 is the sum of the pixels |
| Statistics.MeanBounds | c/dprt.c:579 | the mean lies between 0 and the peak |
| Statistics.BrightestOf | c/dprt.c:774-786 | the brightest pixel lies on the grid, holds the peak, no pixel is brighter, and every pixel before it in row-major order is strictly dimmer, so the first maximum wins |
| Statistics.DarkFrame | c/dprt.c:774-786 | an all-zero frame has peak 0 and mean 0, and reports counts 0 at column 0 of row 0 |
| Statistics.TiedFrameStatistics | c/dprt.c:552-580 | the 2x2 frame 1 4 / 3 4 has peak 4 and mean 3 |
| Statistics.TiedFrameBrightest | c/dprt.c:774-786 | of its two maxima, the 2x2 frame 1 4 / 3 4 reports column 1 of row 0, the first in row-major order |
| Statistics.AccumulateRow | c/dprt.c:556-562 | one row of the calibration scan extends the running sum and maximum of the prefix to the end of the row |
| Statistics.ScanCalibration | c/dprt.c:552-576 | the row-by-row scan finishes exactly when no poll after a row answers TRUE, with the sum and maximum of all pixels; otherwise it stops after the row whose poll first answered TRUE; it reports how many polls it made, one per row scanned |
| Statistics.BrightestInRow | c/dprt.c:776-785 | one row of the exposure scan keeps the running brightest pixel the first strict maximum of the prefix, and moves it only to a column of this row |
| Statistics.ScanExposure | c/dprt.c:774-786 | the nested loop with the strict `>` comparison finds exactly the brightest pixel of the frame |
| Seeing.FindFrom | c/dprt.c:800 | the first occurrence of the pattern at or after a position, as strstr finds it, or none when there is no occurrence |
| Seeing.Contains | c/dprt.c:800-801 | strstr finds the pattern exactly when it occurs somewhere in the string |
| Seeing.SimulatedSeeing | c/dprt.c:800-811 | a frame whose name contains `telFocus` gets the focus-model seeing, any other the guessed seeing |
| Seeing.GuessSeeingRange | c/dprt.c:810 | the guessed seeing is a whole number of tenths from 0.0 to 4.9 and depends only on the draw modulo 50 |
| Seeing.FocusErrorBounds | c/dprt.c:803 | for a non-negative atmospheric variation and a draw in [0, RAND_MAX], the random error lies between 0 and the atmospheric variation |
| Seeing.FocusBaseAtBestFocus | c/dprt.c:804-805 | at the best focus the seeing before the error is the atmospheric seeing |
| Seeing.FocusBaseSymmetric | c/dprt.c:804-805 | the focus model is symmetric about the best focus |
| Seeing.FocusBaseGrowsWithDefocus | c/dprt.c:804-805 | when the per-millimetre width exceeds the atmospheric seeing, a focus further from the best gives at least as large a seeing |
| Seeing.FocusSeeingWithoutVariation | c/dprt.c:803-805 | without atmospheric variation the focus-run seeing does not depend on the draw |
| FakePipeline.CalibratePolls | c/dprt.c:537-576 | the calibration polls once before the scan and once after each row, stopping at the first TRUE answer |
| FakePipeline.ReadFocusConfig | c/dprt.c:655-662 | the four focus-model properties are read in order, stopping at the first that cannot be read; the configuration is available exactly when all four are |
| FakePipeline.CalibrateAfterLoadOutcome | c/dprt.c:537-596 | after loading, success exactly when no poll answers TRUE and the name allocates, with the input filename, mean and peak; poll 0 gives 1, a poll after a row 45, the allocation 2, each with the outputs cleared; the buffer is freed once |
| FakePipeline.CalibrateFakeValidated | c/dprt.c:428-597 | once validation passes, the calibration stand-in is the post-load stage on the file's image, after the abort reset and the validation calls |
| FakePipeline.CalibrateFakeSucceeds | c/dprt.c:428-597 | the calibration stand-in succeeds exactly when validation passes, no abort poll answers TRUE and the name allocates, and then reports the input filename, the mean and the peak of the file's pixels |
| FakePipeline.CalibrateFakeValidationFailure | c/dprt.c:447-535 | a validation failure gives the first failing step's error number before any abort poll, with mean and peak 0 and the output filename as it was |
| FakePipeline.CalibrateFakeResources | c/dprt.c:443-578 | the calibration stand-in resets the abort flag once and first, frees the buffer exactly when it allocated it, reads no property and never calls the engine |
| FakePipeline.CalibrateFakeErrorRecord | c/dprt.c:436-597 | the calibration stand-in succeeds exactly when it leaves the error record clear; every failure leaves one of its error numbers |
| FakePipeline.ExposeAfterLoadOutcome | c/dprt.c:763-825 | after loading, success exactly when neither poll answers TRUE and the name allocates, with the input filename, seeing and brightest pixel; an abort before the scan (44) clears everything, an abort after it (3) keeps the brightest pixel, a failed allocation (4) keeps seeing and pixel; the buffer is freed once |
| FakePipeline.ExposeFakeConfigMissing | c/dprt.c:644-662 | a missing focus-model property fails with every out-parameter cleared, after the lookups up to the missing one, without touching the file or the engine |
| FakePipeline.ExposeFakeValidated | c/dprt.c:628-826 | once the configuration is read and validation passes, the exposure stand-in is the post-load stage on the file's image and TELFOCUS |
| FakePipeline.ExposeFakeSucceeds | c/dprt.c:628-826 | the exposure stand-in succeeds exactly when the four properties are read, validation passes, neither poll answers TRUE and the name allocates, and then reports the input filename, the brightest pixel (holding the peak) and the simulated seeing |
| FakePipeline.ExposeFakeValidationFailure | c/dprt.c:664-761 | a validation failure gives the first failing step's error number before any abort poll, with every out-parameter cleared |
| FakePipeline.ExposeFakeResources | c/dprt.c:642-788 | the exposure stand-in resets the abort flag once and first, frees the buffer exactly when it allocated it, looks up only the four focus-model properties and never calls the engine |
| FakePipeline.ExposeFakeErrorRecord | c/dprt.c:636-826 | the exposure stand-in succeeds exactly when it leaves the error record clear; a failure leaves one of its error numbers or the getter's error |
| FakePipeline.RunCalibrateAfterLoad | c/dprt.c:537-596 | the C control flow, with the row-by-row scan and the mean over NAXIS1*NAXIS2, computes exactly the post-load calibration outcome, its abort polls counted as the loop makes them |
| FakePipeline.RunExposeAfterLoad | c/dprt.c:763-825 | the C control flow, with the nested brightest-pixel loop, computes exactly the post-load exposure outcome |
| Dispatch.CalibrateReduceFlagsMissing | c/dprt.c:162-169 | an unreadable `dprt.fake` or `dprt.full_reduction` fails with the out-parameters untouched, after only those lookups |
| Dispatch.CalibrateReduceFake | c/dprt.c:165-174 | with `dprt.fake` set, the calibration is the stand-in pipeline after both flag lookups, and contacts no engine |
| Dispatch.CalibrateReduceEngine | c/dprt.c:175-202 | otherwise one dprt_process call, in full mode exactly when `dprt.full_reduction` is set and with no file access; an engine TRUE clears the outputs and copies the engine's error; else the mean and peak are the engine's and the filename is what it left |
| Dispatch.ExposeReduceFlagsMissing | c/dprt.c:241-248 | an unreadable `dprt.fake` or `dprt.full_reduction` fails with the out-parameters untouched, after only those lookups |
| Dispatch.ExposeReduceFake | c/dprt.c:244-254 | with `dprt.fake` set, the exposure is the stand-in pipeline after both flag lookups, and contacts no engine |
| Dispatch.ExposeReduceEngine | c/dprt.c:255-287 | otherwise one dprt_process call in the mode `dprt.full_reduction` selects; an engine TRUE clears all eight outputs and copies the engine's error; else every value is the engine's and the filename is what it left |
| Dispatch.ReduceReportsErrors | c/dprt.c:156-288 | both reductions succeed exactly when they leave the error record clear, and an engine error they leave is the engine's own number and string |
| Dispatch.MakeMasterOutcome | c/dprt.c:302-345 | both flags are read even in stand-in mode and either missing fails; the engine is called, with the master's run mode, exactly when stand-in mode is off and the flag is set, and only then can it fail, copying the engine's error |
| Dispatch.MakeMasterKinds | c/dprt.c:359-402 | the bias operation calls the engine with MAKE_BIAS under `dprt.make_master_bias`, the flat one with MAKE_FLAT under `dprt.make_master_flat`, and each fails when its own flag cannot be read |
| Lifecycle.InitialiseOutcome | c/dprt.c:61-104 | success exactly when the binding initialises, `dprt.fake` is read, and in engine mode `dprt.path` is read and neither dprt_set_path nor dprt_init returns TRUE; the calls are a prefix of the full sequence cut at the first failure; stand-in mode contacts no engine |
| Lifecycle.ShutdownAsWritten | c/dprt.c:111-134 | as written, engine-mode shutdown succeeds only when dprt_close_down returns TRUE, so a clean close-down fails; stand-in mode succeeds without the engine |
| Lifecycle.ShutdownCorrectedOutcome | c/dprt.c:111-134 | with the engine's convention, shutdown fails exactly when dprt_close_down returns TRUE, copying the engine's error, and judges a status the way DpRt_Initialise judges dprt_init's |

## Left out

- CFITSIO. `fits_open_file`, `fits_read_key`, `fits_read_img` and `fits_close_file` are an oracle, `FitsFile`, that says which step fails, the key values and the pixels. The conversion to TUSHORT is taken as given.
- `fits_report_error`, every `fprintf` and the uninitialised `run_mode` printed at c/dprt.c:177-178: logging only.
- The text of the error string. The stand-ins' `sprintf` messages are not modelled, and `FakeError` carries the number only. The engine's string is copied as an opaque value.
- JNI. `DpRt_JNI_Initialise` and the property getters are inputs: `bindingInitialises`, and `Option` values in `Properties`. What a failing getter leaves in the error record is the single value `BindingError`.
- The `dprt.fake` flag is a boolean. The C `int` is judged by `if(fake)` in the reductions and by `fake == FALSE` in the lifecycle routines; both take the engine branch exactly when it is 0, so a boolean loses nothing.
- The engine internals (`dprt_set_path`, `dprt_init`, `dprt_process`, `dprt_close_down`). Each is a returned status plus the values `dprt_process` leaves; `dprt_err_int` and `dprt_err_str` are oracle values.
- Concurrency: another thread setting the abort flag is a sequence of poll answers.
- `rand()`: an oracle draw in [0, RAND_MAX]. Each operation uses at most one draw.
- FITS dimensions below 1: the model requires NAXIS1 and NAXIS2 to be at least 1, because the C code has no guard for them.
- The C `int` overflow of `naxis_one*naxis_two` in the allocation size and the read count: the model takes the product as exact and requires the file to supply that many pixels.
- Memory ownership of the allocated output filename: it is modelled as the input filename, and its allocation succeeding or failing is an oracle answer.
- FakePipeline.CalibrateFakeSucceeds, FakePipeline.CalibrateAfterLoadOutcome, FakePipeline.RunCalibrateAfterLoad: the mean is the exact real average; the C code rounds it through `float` (c/dprt.c:579). The peak cast at c/dprt.c:580 is exact for a 16-bit value.
- FakePipeline.ExposeFakeErrorRecord, Dispatch.ReduceReportsErrors: the model keeps a copied engine error apart from the cleared record even when the engine publishes 0 and "" (and a failing getter's `BindingError` apart whatever it sets), where the C record would read as cleared; the "succeeds exactly when clear" promise relies on that distinction.
- Seeing.SimulatedSeeing: exact real arithmetic, with `pow(d, 2.0)` written as `d*d` and the `float` cast of the guessed seeing dropped.
- Dispatch.CalibrateReduceEngine: the engine's `float` results are taken as exact reals, without the float-to-double conversion.
- Dispatch.ExposeReduceEngine: as for calibration, the engine's `float` results are exact reals.

## Findings

| source | as written | input that shows it | evidently intended | confidence | as-written member | corrected member |
|---|---|---|---|---|---|---|
| c/dprt.c:126 | `DpRt_Shutdown` fails when `dprt_close_down` returns anything other than TRUE, although every other engine call (c/dprt.c:82, 96, 189, 265, 331, 388) treats TRUE as the error | `dprt.fake` FALSE and `dprt_close_down` returning FALSE (a clean close-down): shutdown returns FALSE and copies a stale engine error | fail only when `dprt_close_down` returns TRUE, as `DpRt_Initialise` does for `dprt_init` | medium, not executed | Lifecycle.ShutdownAsWritten | Lifecycle.ShutdownCorrectedOutcome |

=== FILE: abort.dfy ===
/** The cooperative abort flag. An operation resets the flag and then polls it at
    fixed points; another thread may set it at any time, so the model takes the
    answers to the polls as an oracle: `aborts[k]` answers poll number k. */
module Abort {
  import opened Types

  /** The answer to poll number `k`; polls past the given answers read FALSE. */
  predicate Poll(aborts: seq<bool>, k: nat) {
    k < |aborts| && aborts[k]
  }

  /** The first poll number in `lo..hi` (both included) that answers TRUE. */
  function FirstAbort(aborts: seq<bool>, lo: nat, hi: nat): (r: Option<nat>)
    ensures r.Some? ==> lo <= r.value <= hi && Poll(aborts, r.value)
    ensures r.Some? ==> forall k :: lo <= k < r.value ==> !Poll(aborts, k)
    ensures r.None? <==> forall k :: lo <= k <= hi ==> !Poll(aborts, k)
    decreases hi + 1 - lo
  {
    if lo > hi then None
    else if Poll(aborts, lo) then Some(lo)
    else FirstAbort(aborts, lo + 1, hi)
  }

  /** The first TRUE answer up to `hi + 1` is the first one up to `hi`, if any,
      and otherwise poll `hi + 1` when it answers TRUE. */
  lemma FirstAbortExtend(aborts: seq<bool>, lo: nat, hi: nat)
    requires lo <= hi + 1
    ensures FirstAbort(aborts, lo, hi + 1) ==
      if FirstAbort(aborts, lo, hi).Some? then FirstAbort(aborts, lo, hi)
      else if Poll(aborts, hi + 1) then Some(hi + 1)
      else None
  {
  }

  /** Widening the range past the first TRUE answer does not change it. */
  lemma FirstAbortWiden(aborts: seq<bool>, lo: nat, hi: nat, hi': nat)
    requires hi <= hi' && FirstAbort(aborts, lo, hi).Some?
    ensures FirstAbort(aborts, lo, hi') == FirstAbort(aborts, lo, hi)
  {
  }

  /** `n` consecutive polls of the abort flag: as a multiset, `n` polls and
      no other call. */
  function Polls(n: nat): (t: seq<Event>)
    ensures |t| == n && forall i :: 0 <= i < n ==> t[i] == PollAbort
    ensures multiset(t)[PollAbort] == n
    ensures forall e :: e != PollAbort ==> multiset(t)[e] == 0
  {
    var t := seq(n, _ => PollAbort);
    AllPollsCount(t);
    t
  }

  /** A trace of polls alone counts `|t|` polls and nothing else. */
  lemma {:induction false} AllPollsCount(t: seq<Event>)
    requires forall i :: 0 <= i < |t| ==> t[i] == PollAbort
    ensures multiset(t)[PollAbort] == |t|
    ensures forall e :: e != PollAbort ==> multiset(t)[e] == 0
  {
    if t != [] {
      assert t == t[..|t| - 1] + [PollAbort];
      AllPollsCount(t[..|t| - 1]);
    }
  }
}

=== FILE: dispatch.dfy ===
/** The public reduction operations of c/dprt.c: DpRt_Calibrate_Reduce,
    DpRt_Expose_Reduce, DpRt_Make_Master_Bias and DpRt_Make_Master_Flat. Each
    resets the error record, reads `dprt.fake` and then its own flag, and either
    runs the stand-in pipeline or hands the file to the external engine's
    dprt_process. */
module Dispatch {
  import opened Types
  import opened FakePipeline

  /** The two flags an operation reads before it branches: `dprt.fake` and the
      operation's own flag. */
  datatype Flags = Flags(fake: bool, own: bool)

  /** The flags read, or `None` when one of them cannot be read, and the lookups
      made. */
  datatype FlagRead = FlagRead(flags: Option<Flags>, trace: seq<Event>)

  /** Reads `dprt.fake` and then the property `name`, stopping at the first one
      that cannot be read. */
  function ReadFlags(fake: Option<bool>, name: string, own: Option<bool>): FlagRead {
    if fake.None? then FlagRead(None, [GetProperty(FakeProperty)])
    else
      var t := [GetProperty(FakeProperty), GetProperty(name)];
      if own.None? then FlagRead(None, t) else FlagRead(Some(Flags(fake.value, own.value)), t)
  }

  /** The run mode for a calibration or exposure frame. */
  function RunModeFor(fullReduction: bool): RunMode {
    if fullReduction then FullReduction else QuickReduction
  }

  /** The output filename after dprt_process: whatever it stored, or the value
      the filename had on entry when it left it alone. */
  function EngineFilename(prior: Option<string>, w: FilenameWrite): Option<string> {
    match w
    case Untouched => prior
    case Written(name) => name
  }

  /** The engine's error number and string, copied into the error record. */
  function CopiedEngineError(engine: Engine): ErrorRecord {
    EngineError(engine.errCode, engine.errText)
  }

  /** DpRt_Calibrate_Reduce on the frame `input`. `prior` holds the values the
      out-parameters had on entry. */
  function CalibrateReduce(input: string, prior: CalibrateOut, env: Environment): Outcome<CalibrateOut>
    requires env.Valid()
  {
    var read := ReadFlags(env.props.fake, FullReductionProperty, env.props.fullReduction);
    if read.flags.None? then Outcome(false, prior, BindingError, read.trace)
    else if read.flags.value.fake then
      var r := CalibrateFake(input, prior, env);
      r.(trace := read.trace + r.trace)
    else
      var reply := env.engine.process;
      var t := read.trace + [EngineProcess(input, RunModeFor(read.flags.value.own))];
      if EngineFailed(reply.status) then Outcome(false, CalibrateCleared, CopiedEngineError(env.engine), t)
      else
        var name := EngineFilename(prior.outputFilename, reply.outputFilename);
        Outcome(true, CalibrateOut(name, reply.mean, reply.counts), NoError, t)
  }

  /** DpRt_Expose_Reduce on the frame `input`. `prior` holds the values the
      out-parameters had on entry. */
  function ExposeReduce(input: string, prior: ExposeOut, env: Environment): Outcome<ExposeOut>
    requires env.Valid()
  {
    var read := ReadFlags(env.props.fake, FullReductionProperty, env.props.fullReduction);
    if read.flags.None? then Outcome(false, prior, BindingError, read.trace)
    else if read.flags.value.fake then
      var r := ExposeFake(input, env);
      r.(trace := read.trace + r.trace)
    else
      var reply := env.engine.process;
      var t := read.trace + [EngineProcess(input, RunModeFor(read.flags.value.own))];
      if EngineFailed(reply.status) then Outcome(false, ExposeCleared, CopiedEngineError(env.engine), t)
      else
        var name := EngineFilename(prior.outputFilename, reply.outputFilename);
        Outcome(true, ExposeOut(name, reply.seeing, reply.counts, reply.xPix, reply.yPix,
                                reply.photometricity, reply.skyBrightness, reply.saturated), NoError, t)
  }

  /** The two master frames the engine can build from a directory of frames. */
  datatype MasterKind = MasterBias | MasterFlat {
    /** The property that switches building the master frame on. */
    function Property(): string {
      match this
      case MasterBias => MakeMasterBiasProperty
      case MasterFlat => MakeMasterFlatProperty
    }

    /** The value of that property in the store. */
    function Flag(props: Properties): Option<bool> {
      match this
      case MasterBias => props.makeMasterBias
      case MasterFlat => props.makeMasterFlat
    }

    /** The run mode dprt_process is called with. */
    function Mode(): RunMode {
      match this
      case MasterBias => MakeBias
      case MasterFlat => MakeFlat
    }
  }

  /** DpRt_Make_Master_Bias and DpRt_Make_Master_Flat on `directory`: the stand-in
      does nothing, and the engine is only called when the flag is set. */
  function MakeMaster(kind: MasterKind, directory: string, env: Environment): Status {
    var read := ReadFlags(env.props.fake, kind.Property(), kind.Flag(env.props));
    if read.flags.None? then Status(false, BindingError, read.trace)
    else if read.flags.value.fake || !read.flags.value.own then Status(true, NoError, read.trace)
    else
      var t := read.trace + [EngineProcess(directory, kind.Mode())];
      if EngineFailed(env.engine.process.status) then Status(false, CopiedEngineError(env.engine), t)
      else Status(true, NoError, t)
  }

  /** DpRt_Make_Master_Bias. */
  function MakeMasterBias(directory: string, env: Environment): Status {
    MakeMaster(MasterBias, directory, env)
  }

  /** DpRt_Make_Master_Flat. */
  function MakeMasterFlat(directory: string, env: Environment): Status {
    MakeMaster(MasterFlat, directory, env)
  }

  // ---------------------------------------------------------------------------
  // Properties
  // ---------------------------------------------------------------------------

  /** Two traces without engine calls make one without engine calls. */
  lemma NoEngineAppend(a: seq<Event>, b: seq<Event>)
    requires !ContactsEngine(a) && !ContactsEngine(b)
    ensures !ContactsEngine(a + b)
  {
    forall i | 0 <= i < |a + b|
      ensures !IsEngineCall((a + b)[i])
    {
      if i >= |a| {
        assert (a + b)[i] == b[i - |a|];
      }
    }
  }

  /** Property lookups touch neither the FITS library nor the engine. */
  lemma LookupsOnly(t: seq<Event>)
    requires forall i :: 0 <= i < |t| ==> t[i].GetProperty?
    ensures !ContactsEngine(t) && !TouchesFile(t)
  {
  }

  /** When `dprt.fake` or `dprt.full_reduction` cannot be read, the calibration
      fails with every out-parameter as it was, after at most those two lookups
      and nothing else. */
  lemma CalibrateReduceFlagsMissing(input: string, prior: CalibrateOut, env: Environment)
    requires env.Valid() && (env.props.fake.None? || env.props.fullReduction.None?)
    ensures var r := CalibrateReduce(input, prior, env);
      && !r.success && r.out == prior && r.error == BindingError
      && r.trace == (if env.props.fake.None? then [GetProperty(FakeProperty)]
                     else [GetProperty(FakeProperty), GetProperty(FullReductionProperty)])
      && !ContactsEngine(r.trace) && !TouchesFile(r.trace)
  {
    LookupsOnly(CalibrateReduce(input, prior, env).trace);
  }

  /** In stand-in mode the calibration is the stand-in pipeline, after the two
      flag lookups, and never contacts the engine. */
  lemma CalibrateReduceFake(input: string, prior: CalibrateOut, env: Environment)
    requires env.Valid() && env.props.fake == Some(true) && env.props.fullReduction.Some?
    ensures var r := CalibrateReduce(input, prior, env);
      var f := CalibrateFake(input, prior, env);
      && r.success == f.success && r.out == f.out && r.error == f.error
      && r.trace == [GetProperty(FakeProperty), GetProperty(FullReductionProperty)] + f.trace
      && !ContactsEngine(r.trace)
  {
    CalibrateFakeResources(input, prior, env);
    var lookups := [GetProperty(FakeProperty), GetProperty(FullReductionProperty)];
    LookupsOnly(lookups);
    NoEngineAppend(lookups, CalibrateFake(input, prior, env).trace);
  }

  /** Otherwise the calibration makes one dprt_process call, in full-reduction
      mode exactly when `dprt.full_reduction` is set, and opens no file. An
      engine error clears the out-parameters and copies the engine's error;
      otherwise the mean and peak are the engine's and the filename is the one
      it left. */
  lemma CalibrateReduceEngine(input: string, prior: CalibrateOut, env: Environment)
    requires env.Valid() && env.props.fake == Some(false) && env.props.fullReduction.Some?
    ensures var r := CalibrateReduce(input, prior, env);
      var reply := env.engine.process;
      && r.trace == [GetProperty(FakeProperty), GetProperty(FullReductionProperty),
                     EngineProcess(input, RunModeFor(env.props.fullReduction.value))]
      && (RunModeFor(env.props.fullReduction.value) == FullReduction <==> env.props.fullReduction.value)
      && !TouchesFile(r.trace)
      && (r.success <==> !EngineFailed(reply.status))
      && (!r.success ==> r.out == CalibrateCleared && r.error == EngineError(env.engine.errCode, env.engine.errText))
      && (r.success ==>
            && r.error == NoError
            && r.out.meanCounts == reply.mean && r.out.peakCounts == reply.counts
            && (reply.outputFilename.Untouched? ==> r.out.outputFilename == prior.outputFilename)
            && (reply.outputFilename.Written? ==> r.out.outputFilename == reply.outputFilename.name))
  {
  }

  /** When `dprt.fake` or `dprt.full_reduction` cannot be read, the exposure
      fails with every out-parameter as it was, after at most those two lookups
      and nothing else. */
  lemma ExposeReduceFlagsMissing(input: string, prior: ExposeOut, env: Environment)
    requires env.Valid() && (env.props.fake.None? || env.props.fullReduction.None?)
    ensures var r := ExposeReduce(input, prior, env);
      && !r.success && r.out == prior && r.error == BindingError
      && r.trace == (if env.props.fake.None? then [GetProperty(FakeProperty)]
                     else [GetProperty(FakeProperty), GetProperty(FullReductionProperty)])
      && !ContactsEngine(r.trace) && !TouchesFile(r.trace)
  {
    LookupsOnly(ExposeReduce(input, prior, env).trace);
  }

  /** In stand-in mode the exposure is the stand-in pipeline, after the two flag
      lookups, and never contacts the engine. */
  lemma ExposeReduceFake(input: string, prior: ExposeOut, env: Environment)
    requires env.Valid() && env.props.fake == Some(true) && env.props.fullReduction.Some?
    ensures var r := ExposeReduce(input, prior, env);
      var f := ExposeFake(input, env);
      && r.success == f.success && r.out == f.out && r.error == f.error
      && r.trace == [GetProperty(FakeProperty), GetProperty(FullReductionProperty)] + f.trace
      && !ContactsEngine(r.trace)
  {
    ExposeReduceFakeShape(input, prior, env);
    var f := ExposeFake(input, env);
    ExposeFakeResources(input, env);
    var lookups := [GetProperty(FakeProperty), GetProperty(FullReductionProperty)];
    LookupsOnly(lookups);
    NoEngineAppend(lookups, f.trace);
  }

  /** The first half of ExposeReduceFake: the outcome is the stand-in's. */
  lemma ExposeReduceFakeShape(input: string, prior: ExposeOut, env: Environment)
    requires env.Valid() && env.props.fake == Some(true) && env.props.fullReduction.Some?
    ensures ExposeReduce(input, prior, env) == ExposeFake(input, env).(
      trace := [GetProperty(FakeProperty), GetProperty(FullReductionProperty)] + ExposeFake(input, env).trace)
  {
  }

  /** Otherwise the exposure makes one dprt_process call, in full-reduction mode
      exactly when `dprt.full_reduction` is set, and opens no file. An engine
      error clears every out-parameter and copies the engine's error; otherwise
      every numeric out-parameter is the engine's and the filename is the one it
      left. */
  lemma ExposeReduceEngine(input: string, prior: ExposeOut, env: Environment)
    requires env.Valid() && env.props.fake == Some(false) && env.props.fullReduction.Some?
    ensures var r := ExposeReduce(input, prior, env);
      var reply := env.engine.process;
      && r.trace == [GetProperty(FakeProperty), GetProperty(FullReductionProperty),
                     EngineProcess(input, RunModeFor(env.props.fullReduction.value))]
      && !TouchesFile(r.trace)
      && (r.success <==> !EngineFailed(reply.status))
      && (!r.success ==> r.out == ExposeCleared && r.error == EngineError(env.engine.errCode, env.engine.errText))
      && (r.success ==>
            && r.error == NoError
            && r.out.seeing == reply.seeing && r.out.counts == reply.counts
            && r.out.xPix == reply.xPix && r.out.yPix == reply.yPix
            && r.out.photometricity == reply.photometricity && r.out.skyBrightness == reply.skyBrightness
            && r.out.saturated == reply.saturated
            && (reply.outputFilename.Untouched? ==> r.out.outputFilename == prior.outputFilename)
            && (reply.outputFilename.Written? ==> r.out.outputFilename == reply.outputFilename.name))
  {
  }

  /** A master-frame operation reads both of its flags, even in stand-in mode,
      and fails when either cannot be read. It calls the engine exactly when
      stand-in mode is off and its flag is set, with the master frame's run
      mode, and then fails exactly when the engine reports an error, copying
      it. Every other path succeeds with a clear error record. */
  lemma MakeMasterOutcome(kind: MasterKind, directory: string, env: Environment)
    ensures var r := MakeMaster(kind, directory, env);
      var fake, own := env.props.fake, kind.Flag(env.props);
      var lookups := if fake.None? then [GetProperty(FakeProperty)]
                     else [GetProperty(FakeProperty), GetProperty(kind.Property())];
      var calls := fake == Some(false) && own == Some(true);
      && (fake.None? || own.None? ==> !r.success && r.error == BindingError && r.trace == lookups)
      && (calls <==> ContactsEngine(r.trace))
      && (calls ==> r.trace == lookups + [EngineProcess(directory, kind.Mode())])
      && (!calls ==> r.trace == lookups)
      && !TouchesFile(r.trace)
      && (r.success <==> fake.Some? && own.Some? && (!calls || !EngineFailed(env.engine.process.status)))
      && (r.success ==> r.error == NoError)
      && (calls && !r.success ==> r.error == EngineError(env.engine.errCode, env.engine.errText))
  {
    var r := MakeMaster(kind, directory, env);
    if env.props.fake == Some(false) && kind.Flag(env.props) == Some(true) {
      assert IsEngineCall(r.trace[2]);
    } else {
      LookupsOnly(r.trace);
    }
  }

  /** DpRt_Make_Master_Bias builds the master bias, and DpRt_Make_Master_Flat the
      master flat, each switched by its own property. */
  lemma MakeMasterKinds(directory: string, env: Environment)
    ensures var bias := MakeMasterBias(directory, env);
      env.props.fake == Some(false) && env.props.makeMasterBias == Some(true) ==>
        EngineProcess(directory, MakeBias) in bias.trace
    ensures var flat := MakeMasterFlat(directory, env);
      env.props.fake == Some(false) && env.props.makeMasterFlat == Some(true) ==>
        EngineProcess(directory, MakeFlat) in flat.trace
    ensures env.props.makeMasterBias.None? ==> !MakeMasterBias(directory, env).success
    ensures env.props.makeMasterFlat.None? ==> !MakeMasterFlat(directory, env).success
  {
    MakeMasterOutcome(MasterBias, directory, env);
    MakeMasterOutcome(MasterFlat, directory, env);
  }

  /** Every reduction operation succeeds exactly when it leaves the error record
      clear. */
  lemma ReduceReportsErrors(input: string, calPrior: CalibrateOut, expPrior: ExposeOut, env: Environment)
    requires env.Valid()
    ensures var r := CalibrateReduce(input, calPrior, env); r.success <==> r.error == NoError
    ensures var r := ExposeReduce(input, expPrior, env); r.success <==> r.error == NoError
    ensures var r := CalibrateReduce(input, calPrior, env);
      r.error.EngineError? ==> r.error == CopiedEngineError(env.engine)
    ensures var r := ExposeReduce(input, expPrior, env);
      r.error.EngineError? ==> r.error == CopiedEngineError(env.engine)
  {
    if env.props.fake == Some(true) && env.props.fullReduction.Some? {
      CalibrateFakeErrorRecord(input, calPrior, env);
      ExposeFakeErrorRecord(input, env);
    }
  }
}

=== FILE: fake.dfy ===
/** The stand-in pipelines Calibrate_Reduce_Fake and Expose_Reduce_Fake, used
    when the configuration sets dprt.fake. Each resets the abort flag, runs the
    validation sequence of the Fits module, polls the abort flag, scans the
    pixels, frees the pixel buffer and copies the input filename into a freshly
    allocated output filename. The numbers they leave in the error record are
    the ones of c/dprt.c; the formatted error text is not modelled. */
module FakePipeline {
  import opened Types
  import opened Abort
  import opened Fits
  import opened Statistics
  import opened Seeing

  /** Error numbers set by the calibration stand-in after validation. */
  const CalibrateAbortBeforeScan := 1
  const CalibrateNameAllocFailed := 2
  const CalibrateAbortDuringScan := 45

  /** Error numbers set by the exposure stand-in after validation. */
  const ExposeAbortAfterScan := 3
  const ExposeNameAllocFailed := 4
  const ExposeAbortBeforeScan := 44

  /** Every error number the stand-ins set after validation. */
  const AfterValidationCodes: set<int> :=
    {CalibrateAbortBeforeScan, CalibrateNameAllocFailed, CalibrateAbortDuringScan,
     ExposeAbortAfterScan, ExposeNameAllocFailed, ExposeAbortBeforeScan}

  /** The six post-validation error numbers are distinct from one another and
      from every validation failure's number, so with ErrorCodeIdentifiesStep
      each error number of the stand-ins names one failure point. */
  lemma ErrorNumbersDistinct(p: Pipeline, f: Failure)
    requires Applies(p, f)
    ensures |AfterValidationCodes| == 6
    ensures ErrorCode(p, f) !in AfterValidationCodes
  {
  }

  /** The number of abort polls a calibration scan of `rows` rows makes: poll 0
      before the scan and one after each row, stopping at the first TRUE. */
  function CalibratePolls(aborts: seq<bool>, rows: nat): (n: nat)
    ensures 1 <= n <= rows + 1
    ensures forall k :: 0 <= k < n - 1 ==> !Poll(aborts, k)
    ensures n <= rows ==> Poll(aborts, n - 1)
  {
    match FirstAbort(aborts, 0, rows)
    case Some(k) => k + 1
    case None => rows + 1
  }

  /** What Calibrate_Reduce_Fake does once the image is loaded and the buffer
      is held: the abort polls and the scan, freeing the buffer, and allocating
      the output filename. */
  function CalibrateAfterLoad(input: string, im: Image, aborts: seq<bool>, nameAllocates: bool): Outcome<CalibrateOut>
    requires im.WellFormed()
  {
    var t := Polls(CalibratePolls(aborts, im.naxis2)) + [FreeBuffer];
    if Poll(aborts, 0) then
      Outcome(false, CalibrateCleared, FakeError(CalibrateAbortBeforeScan), t)
    else if FirstAbort(aborts, 1, im.naxis2).Some? then
      Outcome(false, CalibrateCleared, FakeError(CalibrateAbortDuringScan), t)
    else if !nameAllocates then
      Outcome(false, CalibrateCleared, FakeError(CalibrateNameAllocFailed), t)
    else
      Outcome(true, CalibrateOut(Some(input), Mean(im.pixels), Peak(im.pixels) as real), NoError, t)
  }

  /** Calibrate_Reduce_Fake on the frame `input`. `prior` holds the values the
      out-parameters had on entry. */
  function CalibrateFake(input: string, prior: CalibrateOut, env: Environment): Outcome<CalibrateOut>
    requires env.Valid()
  {
    var load := LoadImage(CalibratePipeline, env.file, env.memory);
    var t := [ResetAbort] + load.trace;
    match load.result
    case Err(f) =>
      // mean and peak were zeroed on entry; the output filename is left alone
      Outcome(false, CalibrateOut(prior.outputFilename, 0.0, 0.0), FakeError(ErrorCode(CalibratePipeline, f)), t)
    case Ok(loaded) =>
      var rest := CalibrateAfterLoad(input, loaded.image, env.aborts, env.memory.nameAllocates);
      rest.(trace := t + rest.trace)
  }

  /** The configuration properties of the focus model, in the order they are read. */
  const FocusProperties := [BestFocusProperty, FwhmPerMmProperty, AtmosphericSeeingProperty, AtmosphericVariationProperty]

  /** The focus-model parameters, when all four properties can be read, and the
      lookups made: they stop at the first property that cannot be read. */
  datatype ConfigRead = ConfigRead(config: Option<FocusConfig>, trace: seq<Event>)

  /** The value of the i-th focus property, in the order they are read. */
  function FocusValue(props: Properties, i: nat): Option<real>
    requires i < |FocusProperties|
  {
    [props.bestFocus, props.fwhmPerMm, props.atmosphericSeeing, props.atmosphericVariation][i]
  }

  function ReadFocusConfig(props: Properties): (r: ConfigRead)
    ensures r.config.Some? <==>
      props.bestFocus.Some? && props.fwhmPerMm.Some? && props.atmosphericSeeing.Some? && props.atmosphericVariation.Some?
    ensures r.config.Some? ==>
      r.config.value == FocusConfig(props.bestFocus.value, props.fwhmPerMm.value,
                                    props.atmosphericSeeing.value, props.atmosphericVariation.value)
    ensures 1 <= |r.trace| <= 4
    ensures r.config.Some? ==> |r.trace| == 4
    ensures forall i :: 0 <= i < |r.trace| ==> r.trace[i] == GetProperty(FocusProperties[i])
    ensures forall i :: 0 <= i < |r.trace| - 1 ==> FocusValue(props, i).Some?
    ensures r.config.None? ==> FocusValue(props, |r.trace| - 1).None?
  {
    var lookups := seq(4, i requires 0 <= i < 4 => GetProperty(FocusProperties[i]));
    if props.bestFocus.None? then ConfigRead(None, lookups[..1])
    else if props.fwhmPerMm.None? then ConfigRead(None, lookups[..2])
    else if props.atmosphericSeeing.None? then ConfigRead(None, lookups[..3])
    else if props.atmosphericVariation.None? then ConfigRead(None, lookups)
    else ConfigRead(Some(FocusConfig(props.bestFocus.value, props.fwhmPerMm.value,
                                     props.atmosphericSeeing.value, props.atmosphericVariation.value)), lookups)
  }

  /** The exposure outputs that report the brightest pixel `b`; everything else
      is still cleared. */
  function Found(b: Brightest): ExposeOut {
    ExposeCleared.(counts := b.counts as real, xPix := b.x as real, yPix := b.y as real)
  }

  /** What Expose_Reduce_Fake does once the image is loaded and the buffer is
      held: poll 0, the scan, freeing the buffer, poll 1, the seeing and the
      output filename. */
  function ExposeAfterLoad(input: string, im: Image, telfocus: real, cfg: FocusConfig,
                           aborts: seq<bool>, draw: nat, randMax: nat, nameAllocates: bool): Outcome<ExposeOut>
    requires im.WellFormed() && randMax > 0
  {
    if Poll(aborts, 0) then
      Outcome(false, ExposeCleared, FakeError(ExposeAbortBeforeScan), [PollAbort, FreeBuffer])
    else
      var found := Found(BrightestOf(im));
      var t := [PollAbort, FreeBuffer, PollAbort];
      if Poll(aborts, 1) then
        // the brightest pixel found by the scan is kept
        Outcome(false, found, FakeError(ExposeAbortAfterScan), t)
      else
        var seeing := SimulatedSeeing(input, telfocus, cfg, draw, randMax);
        if !nameAllocates then
          Outcome(false, found.(seeing := seeing), FakeError(ExposeNameAllocFailed), t)
        else
          Outcome(true, found.(seeing := seeing, outputFilename := Some(input)), NoError, t)
  }

  /** Expose_Reduce_Fake on the frame `input`. Every out-parameter is cleared on
      entry, so no prior value survives. */
  function ExposeFake(input: string, env: Environment): Outcome<ExposeOut>
    requires env.Valid()
  {
    var read := ReadFocusConfig(env.props);
    var pre := [ResetAbort] + read.trace;
    if read.config.None? then Outcome(false, ExposeCleared, BindingError, pre)
    else
      var load := LoadImage(ExposePipeline, env.file, env.memory);
      match load.result
      case Err(f) => Outcome(false, ExposeCleared, FakeError(ErrorCode(ExposePipeline, f)), pre + load.trace)
      case Ok(loaded) =>
        var rest := ExposeAfterLoad(input, loaded.image, loaded.telfocus.value, read.config.value,
                                    env.aborts, env.randomDraw, env.randMax, env.memory.nameAllocates);
        rest.(trace := pre + load.trace + rest.trace)
  }

  /** After loading, the calibration stand-in succeeds exactly when no poll
      answers TRUE and the output filename can be allocated, and then reports the
      input filename, the mean and the peak. An abort at poll 0 gives error 1, an
      abort after a row error 45, a failed allocation error 2, and each clears
      every out-parameter. The buffer is freed exactly once. */
  lemma CalibrateAfterLoadOutcome(input: string, im: Image, aborts: seq<bool>, nameAllocates: bool)
    requires im.WellFormed()
    ensures var r := CalibrateAfterLoad(input, im, aborts, nameAllocates);
      var polls := CalibratePolls(aborts, im.naxis2);
      && (r.success <==> FirstAbort(aborts, 0, im.naxis2).None? && nameAllocates)
      && (r.success ==> r.error == NoError && r.out == CalibrateOut(Some(input), Mean(im.pixels), Peak(im.pixels) as real))
      && (!r.success ==> r.out == CalibrateCleared)
      && (Poll(aborts, 0) ==> r.error == FakeError(CalibrateAbortBeforeScan))
      && (polls >= 2 && polls <= im.naxis2 + 1 && Poll(aborts, polls - 1) ==> r.error == FakeError(CalibrateAbortDuringScan))
      && (FirstAbort(aborts, 0, im.naxis2).None? && !nameAllocates ==> r.error == FakeError(CalibrateNameAllocFailed))
      && multiset(r.trace)[PollAbort] == polls
      && multiset(r.trace)[FreeBuffer] == 1
      && forall e :: e in r.trace ==> e == PollAbort || e == FreeBuffer
  {
    var polls := CalibratePolls(aborts, im.naxis2);
    var r := CalibrateAfterLoad(input, im, aborts, nameAllocates);
    assert multiset(r.trace) == multiset(Polls(polls)) + multiset([FreeBuffer]);
  }

  /** The image of a file that passed validation. */
  function FileImage(file: FitsFile): Image
    requires file.naxis1.Some? && file.naxis2.Some? && file.pixels.Some?
  {
    Image(file.naxis1.value, file.naxis2.value, file.pixels.value)
  }

  /** Once validation passes, the calibration stand-in does what the post-load
      stage does on the file's image, after the reset and the validation calls. */
  lemma CalibrateFakeValidated(input: string, prior: CalibrateOut, env: Environment)
    requires env.Valid() && Validates(CalibratePipeline, env.file, env.memory)
    ensures FileImage(env.file).WellFormed()
    ensures var r := CalibrateFake(input, prior, env);
      var rest := CalibrateAfterLoad(input, FileImage(env.file), env.aborts, env.memory.nameAllocates);
      && r.success == rest.success && r.out == rest.out && r.error == rest.error
      && r.trace == [ResetAbort] + LoadImage(CalibratePipeline, env.file, env.memory).trace + rest.trace
  {
    LoadImageSucceeds(CalibratePipeline, env.file, env.memory);
  }

  /** The calibration stand-in succeeds exactly when every validation step
      passes, no poll of the abort flag (the one before the scan or the one after
      any row) answers TRUE, and the output filename can be allocated. It then
      reports the input filename, the mean and the peak of the pixels. */
  lemma CalibrateFakeSucceeds(input: string, prior: CalibrateOut, env: Environment)
    requires env.Valid()
    ensures var r := CalibrateFake(input, prior, env);
      && (r.success <==>
            && Validates(CalibratePipeline, env.file, env.memory)
            && FirstAbort(env.aborts, 0, env.file.naxis2.value).None?
            && env.memory.nameAllocates)
      && (r.success ==>
            && r.error == NoError
            && r.out == CalibrateOut(Some(input), Mean(env.file.pixels.value), Peak(env.file.pixels.value) as real))
  {
    LoadImageSucceeds(CalibratePipeline, env.file, env.memory);
    if Validates(CalibratePipeline, env.file, env.memory) {
      CalibrateFakeValidated(input, prior, env);
      CalibrateAfterLoadOutcome(input, FileImage(env.file), env.aborts, env.memory.nameAllocates);
    }
  }

  /** A validation failure stops the calibration stand-in before any abort poll,
      with the error number of the first failing step. Mean and peak were zeroed
      on entry, but the output filename keeps whatever it held. */
  lemma CalibrateFakeValidationFailure(input: string, prior: CalibrateOut, env: Environment, f: Failure)
    requires env.Valid() && FirstFailure(Checks(CalibratePipeline, env.file, env.memory)) == Some(f)
    ensures Applies(CalibratePipeline, f)
    ensures var r := CalibrateFake(input, prior, env);
      && !r.success
      && r.error == FakeError(ErrorCode(CalibratePipeline, f))
      && r.out == CalibrateOut(prior.outputFilename, 0.0, 0.0)
      && PollAbort !in r.trace
  {
    LoadImageStopsAtFirstFailure(CalibratePipeline, env.file, env.memory);
    var load := LoadImage(CalibratePipeline, env.file, env.memory);
    assert PollAbort !in load.trace;
  }

  /** The calls of a stand-in pipeline are the reset of the abort flag, the
      configuration lookups `lookups`, the validation calls of `load`, and the
      calls `rest` made after loading (abort polls and the final free). If the
      parts behave, the whole resets the flag once and first, frees the pixel
      buffer exactly as often as it allocates it (at most once), looks up only
      `lookups` and never calls the reduction engine. */
  lemma StandInTrace(pre: seq<Event>, lookups: seq<Event>, load: Load, rest: seq<Event>)
    requires pre == [ResetAbort] + lookups
    requires forall e :: e in lookups ==> e.GetProperty?
    requires forall e :: e in load.trace ==> e in {OpenFile, AllocBuffer, ReadImage, CloseFile, FreeBuffer} || e.ReadKey?
    requires multiset(load.trace)[AllocBuffer] <= 1
    requires load.result.Err? ==> multiset(load.trace)[FreeBuffer] == multiset(load.trace)[AllocBuffer] && rest == []
    requires load.result.Ok? ==> multiset(load.trace)[AllocBuffer] == 1 && multiset(load.trace)[FreeBuffer] == 0
    requires load.result.Ok? ==> multiset(rest)[FreeBuffer] == 1
    requires forall e :: e in rest ==> e == PollAbort || e == FreeBuffer
    ensures var t := pre + load.trace + rest;
      && t[0] == ResetAbort
      && multiset(t)[ResetAbort] == 1
      && multiset(t)[FreeBuffer] == multiset(t)[AllocBuffer] <= 1
      && multiset(t)[AllocBuffer] == multiset(load.trace)[AllocBuffer]
      && (forall e :: e in t && e.GetProperty? ==> e in lookups)
      && !ContactsEngine(t)
  {
    var t := pre + load.trace + rest;
    assert ResetAbort !in lookups && ResetAbort !in load.trace && ResetAbort !in rest;
    assert AllocBuffer !in lookups && AllocBuffer !in rest && FreeBuffer !in lookups;
    assert multiset(t) == multiset([ResetAbort]) + multiset(lookups) + multiset(load.trace) + multiset(rest);
    assert t[0] == ResetAbort;
    NoEngineCalls(t);
  }

  /** Whatever happens, the calibration stand-in resets the abort flag first,
      frees the pixel buffer exactly once if it allocated it, reads no
      configuration property and never calls the reduction engine. */
  lemma CalibrateFakeResources(input: string, prior: CalibrateOut, env: Environment)
    requires env.Valid()
    ensures var r := CalibrateFake(input, prior, env);
      && |r.trace| > 0 && r.trace[0] == ResetAbort
      && multiset(r.trace)[ResetAbort] == 1
      && multiset(r.trace)[FreeBuffer] == multiset(r.trace)[AllocBuffer] <= 1
      && (AllocBuffer in r.trace <==> HeaderOk(CalibratePipeline, env.file) && env.memory.bufferAllocates)
      && (forall e :: e in r.trace ==> !e.GetProperty?)
      && !ContactsEngine(r.trace)
  {
    var load := LoadImage(CalibratePipeline, env.file, env.memory);
    LoadImageBuffer(CalibratePipeline, env.file, env.memory);
    LoadImageSucceeds(CalibratePipeline, env.file, env.memory);
    var rest: seq<Event> := [];
    if load.result.Ok? {
      CalibrateFakeValidated(input, prior, env);
      CalibrateAfterLoadOutcome(input, FileImage(env.file), env.aborts, env.memory.nameAllocates);
      rest := CalibrateAfterLoad(input, FileImage(env.file), env.aborts, env.memory.nameAllocates).trace;
    }
    assert CalibrateFake(input, prior, env).trace == [ResetAbort] + load.trace + rest;
    assert [ResetAbort] == [ResetAbort] + [];
    StandInTrace([ResetAbort], [], load, rest);
  }

  /** A trace made only of calls that are not engine calls does not contact the engine. */
  lemma NoEngineCalls(t: seq<Event>)
    requires forall e :: e in t ==> !IsEngineCall(e)
    ensures !ContactsEngine(t)
  {
    forall i | 0 <= i < |t|
      ensures !IsEngineCall(t[i])
    {
      assert t[i] in t;
    }
  }

  /** After loading, the exposure stand-in succeeds exactly when neither poll
      answers TRUE and the output filename can be allocated; it then reports the
      input filename, the simulated seeing and the brightest pixel. An abort
      before the scan (error 44) clears every out-parameter; an abort after it
      (error 3) keeps the brightest pixel; a failed allocation (error 4) keeps
      the seeing and the brightest pixel. The buffer is freed exactly once. */
  lemma ExposeAfterLoadOutcome(input: string, im: Image, telfocus: real, cfg: FocusConfig,
                               aborts: seq<bool>, draw: nat, randMax: nat, nameAllocates: bool)
    requires im.WellFormed() && randMax > 0
    ensures var r := ExposeAfterLoad(input, im, telfocus, cfg, aborts, draw, randMax, nameAllocates);
      var b := BrightestOf(im);
      var seeing := SimulatedSeeing(input, telfocus, cfg, draw, randMax);
      && (r.success <==> !Poll(aborts, 0) && !Poll(aborts, 1) && nameAllocates)
      && (r.success ==>
            r.error == NoError &&
            r.out == ExposeOut(Some(input), seeing, b.counts as real, b.x as real, b.y as real, 0.0, 0.0, FALSE))
      && (Poll(aborts, 0) ==> r.error == FakeError(ExposeAbortBeforeScan) && r.out == ExposeCleared)
      && (!Poll(aborts, 0) && Poll(aborts, 1) ==> r.error == FakeError(ExposeAbortAfterScan) && r.out == Found(b))
      && (!Poll(aborts, 0) && !Poll(aborts, 1) && !nameAllocates ==>
            r.error == FakeError(ExposeNameAllocFailed) && r.out == Found(b).(seeing := seeing))
      && multiset(r.trace)[PollAbort] == (if Poll(aborts, 0) then 1 else 2)
      && multiset(r.trace)[FreeBuffer] == 1
      && forall e :: e in r.trace ==> e == PollAbort || e == FreeBuffer
  {
  }

  /** A missing focus-model property stops the exposure stand-in before it opens
      the file: every out-parameter is cleared and the lookups stop at the first
      missing property. */
  lemma ExposeFakeConfigMissing(input: string, env: Environment)
    requires env.Valid() && ReadFocusConfig(env.props).config.None?
    ensures var r := ExposeFake(input, env);
      && !r.success && r.error == BindingError && r.out == ExposeCleared
      && r.trace == [ResetAbort] + ReadFocusConfig(env.props).trace
      && !TouchesFile(r.trace)
      && !ContactsEngine(r.trace)
  {
    var t := ExposeFake(input, env).trace;
    forall i | 0 <= i < |t|
      ensures !IsFileCall(t[i]) && !IsEngineCall(t[i])
    {
      assert i == 0 || t[i] == ReadFocusConfig(env.props).trace[i - 1];
    }
  }

  /** Once the configuration is read and validation passes, the exposure
      stand-in does what the post-load stage does on the file's image and
      TELFOCUS, after the reset, the lookups and the validation calls. */
  lemma ExposeFakeValidated(input: string, env: Environment)
    requires env.Valid() && ReadFocusConfig(env.props).config.Some?
    requires Validates(ExposePipeline, env.file, env.memory)
    ensures FileImage(env.file).WellFormed() && env.file.telfocus.Some?
    ensures var r := ExposeFake(input, env);
      var read := ReadFocusConfig(env.props);
      var rest := ExposeAfterLoad(input, FileImage(env.file), env.file.telfocus.value, read.config.value,
                                  env.aborts, env.randomDraw, env.randMax, env.memory.nameAllocates);
      && r.success == rest.success && r.out == rest.out && r.error == rest.error
      && r.trace == [ResetAbort] + read.trace + LoadImage(ExposePipeline, env.file, env.memory).trace + rest.trace
  {
    LoadImageSucceeds(ExposePipeline, env.file, env.memory);
  }

  /** The exposure stand-in succeeds exactly when the four focus-model
      properties can be read, every validation step passes, neither abort poll
      answers TRUE and the output filename can be allocated. It then reports the
      input filename, the peak of the pixels at a position holding it, and the
      simulated seeing for the file's TELFOCUS. */
  lemma ExposeFakeSucceeds(input: string, env: Environment)
    requires env.Valid()
    ensures var r := ExposeFake(input, env);
      var props := env.props;
      && (r.success <==>
            && props.bestFocus.Some? && props.fwhmPerMm.Some?
            && props.atmosphericSeeing.Some? && props.atmosphericVariation.Some?
            && Validates(ExposePipeline, env.file, env.memory)
            && !Poll(env.aborts, 0) && !Poll(env.aborts, 1)
            && env.memory.nameAllocates)
      && (r.success ==>
            var im := FileImage(env.file);
            var cfg := FocusConfig(props.bestFocus.value, props.fwhmPerMm.value,
                                   props.atmosphericSeeing.value, props.atmosphericVariation.value);
            && r.error == NoError
            && r.out.outputFilename == Some(input)
            && r.out.counts == Peak(env.file.pixels.value) as real
            && r.out == Found(BrightestOf(im)).(
                 seeing := SimulatedSeeing(input, env.file.telfocus.value, cfg, env.randomDraw, env.randMax),
                 outputFilename := Some(input)))
  {
    LoadImageSucceeds(ExposePipeline, env.file, env.memory);
    var read := ReadFocusConfig(env.props);
    if read.config.Some? && Validates(ExposePipeline, env.file, env.memory) {
      ExposeFakeValidated(input, env);
      ExposeAfterLoadOutcome(input, FileImage(env.file), env.file.telfocus.value, read.config.value,
                             env.aborts, env.randomDraw, env.randMax, env.memory.nameAllocates);
    }
  }

  /** A validation failure stops the exposure stand-in before any abort poll,
      with the error number of the first failing step and every out-parameter
      cleared. */
  lemma ExposeFakeValidationFailure(input: string, env: Environment, f: Failure)
    requires env.Valid() && ReadFocusConfig(env.props).config.Some?
    requires FirstFailure(Checks(ExposePipeline, env.file, env.memory)) == Some(f)
    ensures Applies(ExposePipeline, f)
    ensures var r := ExposeFake(input, env);
      && !r.success
      && r.error == FakeError(ErrorCode(ExposePipeline, f))
      && r.out == ExposeCleared
      && PollAbort !in r.trace
  {
    LoadImageStopsAtFirstFailure(ExposePipeline, env.file, env.memory);
    var load := LoadImage(ExposePipeline, env.file, env.memory);
    assert PollAbort !in load.trace;
    assert PollAbort !in ReadFocusConfig(env.props).trace;
  }

  /** Whatever happens, the exposure stand-in resets the abort flag first, frees
      the pixel buffer exactly once if it allocated it, looks up only the four
      focus-model properties and never calls the reduction engine. */
  lemma ExposeFakeResources(input: string, env: Environment)
    requires env.Valid()
    ensures var r := ExposeFake(input, env);
      && |r.trace| > 0 && r.trace[0] == ResetAbort
      && multiset(r.trace)[ResetAbort] == 1
      && multiset(r.trace)[FreeBuffer] == multiset(r.trace)[AllocBuffer] <= 1
      && (forall e :: e in r.trace && e.GetProperty? ==> e.name in FocusProperties)
      && !ContactsEngine(r.trace)
  {
    var read := ReadFocusConfig(env.props);
    if read.config.None? {
      ExposeFakeConfigMissing(input, env);
      FocusLookups(env.props);
      var t := ExposeFake(input, env).trace;
      assert ResetAbort !in read.trace && AllocBuffer !in read.trace && FreeBuffer !in read.trace;
      assert multiset(t) == multiset([ResetAbort]) + multiset(read.trace);
    } else {
      ExposeFakeResourcesLoaded(input, env);
    }
  }

  /** The case of ExposeFakeResources where the configuration is read. */
  lemma ExposeFakeResourcesLoaded(input: string, env: Environment)
    requires env.Valid() && ReadFocusConfig(env.props).config.Some?
    ensures var r := ExposeFake(input, env);
      && |r.trace| > 0 && r.trace[0] == ResetAbort
      && multiset(r.trace)[ResetAbort] == 1
      && multiset(r.trace)[FreeBuffer] == multiset(r.trace)[AllocBuffer] <= 1
      && (forall e :: e in r.trace && e.GetProperty? ==> e.name in FocusProperties)
      && !ContactsEngine(r.trace)
  {
    var read := ReadFocusConfig(env.props);
    var pre := [ResetAbort] + read.trace;
    var load := LoadImage(ExposePipeline, env.file, env.memory);
    LoadImageBuffer(ExposePipeline, env.file, env.memory);
    var rest: seq<Event> := [];
    if load.result.Ok? {
      var loaded := load.result.value;
      var after := ExposeAfterLoad(input, loaded.image, loaded.telfocus.value, read.config.value,
                                   env.aborts, env.randomDraw, env.randMax, env.memory.nameAllocates);
      ExposeAfterLoadOutcome(input, loaded.image, loaded.telfocus.value, read.config.value,
                             env.aborts, env.randomDraw, env.randMax, env.memory.nameAllocates);
      rest := after.trace;
    }
    assert ExposeFake(input, env).trace == pre + load.trace + rest;
    FocusLookups(env.props);
    StandInTrace(pre, read.trace, load, rest);
  }

  /** The focus-model lookups ask only for the four focus-model properties. */
  lemma FocusLookups(props: Properties)
    ensures forall e :: e in ReadFocusConfig(props).trace ==> e.GetProperty? && e.name in FocusProperties
  {
    var t := ReadFocusConfig(props).trace;
    forall e | e in t
      ensures e.GetProperty? && e.name in FocusProperties
    {
      var i :| 0 <= i < |t| && t[i] == e;
      assert e == GetProperty(FocusProperties[i]);
    }
  }

  /** The calibration stand-in succeeds exactly when it leaves the error record
      clear; every failure leaves one of its own error numbers. */
  lemma CalibrateFakeErrorRecord(input: string, prior: CalibrateOut, env: Environment)
    requires env.Valid()
    ensures var r := CalibrateFake(input, prior, env);
      && (r.success <==> r.error == NoError)
      && (!r.success ==> r.error.FakeError?)
  {
  }

  /** The exposure stand-in succeeds exactly when it leaves the error record
      clear; a failure leaves one of its own error numbers, or the property
      getter's error when a focus-model property is missing. */
  lemma ExposeFakeErrorRecord(input: string, env: Environment)
    requires env.Valid()
    ensures var r := ExposeFake(input, env);
      && (r.success <==> r.error == NoError)
      && (!r.success ==> r.error.FakeError? || r.error == BindingError)
  {
  }

  /** The calibration stand-in's post-load stage as the C code runs it: the
      row-by-row scan with an abort poll after each row, then the mean over
      NAXIS1*NAXIS2 pixels. It computes exactly what CalibrateAfterLoad states. */
  method RunCalibrateAfterLoad(input: string, im: Image, aborts: seq<bool>, nameAllocates: bool)
    returns (r: Outcome<CalibrateOut>)
    requires im.WellFormed()
    ensures r == CalibrateAfterLoad(input, im, aborts, nameAllocates)
  {
    if Poll(aborts, 0) {
      return Outcome(false, CalibrateCleared, FakeError(CalibrateAbortBeforeScan), Polls(1) + [FreeBuffer]);
    }
    var scan, polls := ScanCalibration(im, aborts);
    // poll 0 before the scan, then the scan's own polls
    var t := Polls(1 + polls) + [FreeBuffer];
    if scan.AbortedAfterRow? {
      return Outcome(false, CalibrateCleared, FakeError(CalibrateAbortDuringScan), t);
    }
    if !nameAllocates {
      return Outcome(false, CalibrateCleared, FakeError(CalibrateNameAllocFailed), t);
    }
    var count := im.naxis1 * im.naxis2;
    assert count == |im.pixels|;
    r := Outcome(true, CalibrateOut(Some(input), scan.total as real / count as real, scan.peak as real), NoError, t);
  }

  /** The exposure stand-in's post-load stage as the C code runs it, with the
      row-by-row search for the brightest pixel. It computes exactly what
      ExposeAfterLoad states. */
  method RunExposeAfterLoad(input: string, im: Image, telfocus: real, cfg: FocusConfig,
                            aborts: seq<bool>, draw: nat, randMax: nat, nameAllocates: bool)
    returns (r: Outcome<ExposeOut>)
    requires im.WellFormed() && randMax > 0
    ensures r == ExposeAfterLoad(input, im, telfocus, cfg, aborts, draw, randMax, nameAllocates)
  {
    if Poll(aborts, 0) {
      return Outcome(false, ExposeCleared, FakeError(ExposeAbortBeforeScan), [PollAbort, FreeBuffer]);
    }
    var b := ScanExposure(im);
    var found := Found(b);
    var t := [PollAbort, FreeBuffer, PollAbort];
    if Poll(aborts, 1) {
      return Outcome(false, found, FakeError(ExposeAbortAfterScan), t);
    }
    var seeing := SimulatedSeeing(input, telfocus, cfg, draw, randMax);
    if !nameAllocates {
      return Outcome(false, found.(seeing := seeing), FakeError(ExposeNameAllocFailed), t);
    }
    r := Outcome(true, found.(seeing := seeing, outputFilename := Some(input)), NoError, t);
  }
}

=== FILE: fits.dfy ===
/** The image reader and validator of the two stand-in pipelines: open the file,
    check BITPIX and NAXIS, read NAXIS1 and NAXIS2 (and TELFOCUS for an exposure),
    allocate the pixel buffer, read the pixels and close the file, stopping at the
    first step that fails. Each failure point has its own error number. */
module Fits {
  import opened Types

  /** The image format the pipelines accept. */
  const RequiredBitpix := 16
  const RequiredNaxis := 2

  /** Which stand-in pipeline is reading: the two use different error numbers,
      and only the exposure pipeline reads TELFOCUS. */
  datatype Pipeline = CalibratePipeline | ExposePipeline

  /** The failure points of the validation sequence, in the order they are met. */
  datatype Failure =
    | OpenFailed
    | BitpixUnreadable
    | BitpixWrong(actual: int)
    | NaxisUnreadable
    | NaxisWrong(actual: int)
    | Naxis1Unreadable
    | Naxis2Unreadable
    | TelfocusUnreadable
    | AllocFailed
    | ReadFailed
    | CloseFailed

  /** Whether pipeline `p` can fail with `f` at all. */
  predicate Applies(p: Pipeline, f: Failure) {
    f.TelfocusUnreadable? ==> p.ExposePipeline?
  }

  /** The position of failure point `f` in pipeline `p`'s sequence of steps. */
  function StepIndex(p: Pipeline, f: Failure): (i: nat)
    requires Applies(p, f)
    ensures i < NumSteps(p)
  {
    var afterHeader := if p.ExposePipeline? then 8 else 7;
    match f
    case OpenFailed => 0
    case BitpixUnreadable => 1
    case BitpixWrong(_) => 2
    case NaxisUnreadable => 3
    case NaxisWrong(_) => 4
    case Naxis1Unreadable => 5
    case Naxis2Unreadable => 6
    case TelfocusUnreadable => 7
    case AllocFailed => afterHeader
    case ReadFailed => afterHeader + 1
    case CloseFailed => afterHeader + 2
  }

  /** The number of steps in pipeline `p`'s sequence. */
  function NumSteps(p: Pipeline): nat {
    if p.ExposePipeline? then 11 else 10
  }

  /** The error number of the first failure point of each pipeline. */
  function FirstCode(p: Pipeline): int {
    if p.CalibratePipeline? then 23 else 33
  }

  /** The error number each failure point sets (c/dprt.c, Calibrate_Reduce_Fake
      and Expose_Reduce_Fake). The numbers run consecutively along the sequence. */
  function ErrorCode(p: Pipeline, f: Failure): (code: int)
    requires Applies(p, f)
    ensures code == FirstCode(p) + StepIndex(p, f)
    ensures p.CalibratePipeline? ==> 23 <= code <= 32
    ensures p.ExposePipeline? ==> 33 <= code <= 43
  {
    match p
    case CalibratePipeline =>
      (match f
       case OpenFailed => 23
       case BitpixUnreadable => 24
       case BitpixWrong(_) => 25
       case NaxisUnreadable => 26
       case NaxisWrong(_) => 27
       case Naxis1Unreadable => 28
       case Naxis2Unreadable => 29
       case AllocFailed => 30
       case ReadFailed => 31
       case CloseFailed => 32)
    case ExposePipeline =>
      (match f
       case OpenFailed => 33
       case BitpixUnreadable => 34
       case BitpixWrong(_) => 35
       case NaxisUnreadable => 36
       case NaxisWrong(_) => 37
       case Naxis1Unreadable => 38
       case Naxis2Unreadable => 39
       case TelfocusUnreadable => 40
       case AllocFailed => 41
       case ReadFailed => 42
       case CloseFailed => 43)
  }

  /** A failure number identifies the pipeline and the failure point that set it. */
  lemma ErrorCodeIdentifiesStep(p1: Pipeline, f1: Failure, p2: Pipeline, f2: Failure)
    requires Applies(p1, f1) && Applies(p2, f2)
    requires ErrorCode(p1, f1) == ErrorCode(p2, f2)
    ensures p1 == p2 && StepIndex(p1, f1) == StepIndex(p2, f2)
  {
    assert FirstCode(p1) + StepIndex(p1, f1) == FirstCode(p2) + StepIndex(p2, f2);
  }

  /** A step that fails when `failed` holds. */
  function Check(failed: bool, f: Failure): Option<Failure> {
    if failed then Some(f) else None
  }

  /** The header steps, each judged on its own, in the order the pipeline performs them. */
  function HeaderChecks(p: Pipeline, file: FitsFile): seq<Option<Failure>> {
    [ Check(!file.opens, OpenFailed),
      Check(file.bitpix.None?, BitpixUnreadable),
      if file.bitpix.Some? && file.bitpix.value != RequiredBitpix then Some(BitpixWrong(file.bitpix.value)) else None,
      Check(file.naxis.None?, NaxisUnreadable),
      if file.naxis.Some? && file.naxis.value != RequiredNaxis then Some(NaxisWrong(file.naxis.value)) else None,
      Check(file.naxis1.None?, Naxis1Unreadable),
      Check(file.naxis2.None?, Naxis2Unreadable) ]
    + (if p.ExposePipeline? then [Check(file.telfocus.None?, TelfocusUnreadable)] else [])
  }

  /** Every step of the sequence, each judged on its own, in order. */
  function Checks(p: Pipeline, file: FitsFile, mem: Memory): (checks: seq<Option<Failure>>)
    ensures |checks| == NumSteps(p)
  {
    HeaderChecks(p, file)
    + [ Check(!mem.bufferAllocates, AllocFailed),
        Check(file.pixels.None?, ReadFailed),
        Check(!file.closes, CloseFailed) ]
  }

  /** The first step that fails, if any. */
  function FirstFailure(checks: seq<Option<Failure>>): (r: Option<Failure>)
    ensures r.None? <==> forall i :: 0 <= i < |checks| ==> checks[i].None?
  {
    if |checks| == 0 then None
    else if checks[0].Some? then checks[0]
    else FirstFailure(checks[1..])
  }

  /** The first failing step is the one at `i` when every step before it passes. */
  lemma {:induction false} FirstFailureAt(checks: seq<Option<Failure>>, i: nat)
    requires i < |checks| && checks[i].Some?
    requires forall j :: 0 <= j < i ==> checks[j].None?
    ensures FirstFailure(checks) == checks[i]
  {
    if i > 0 {
      FirstFailureAt(checks[1..], i - 1);
    }
  }

  /** All header steps pass: the file opens, BITPIX is 16, NAXIS is 2, the axis
      lengths (and, for an exposure, TELFOCUS) can be read. */
  predicate HeaderOk(p: Pipeline, file: FitsFile) {
    && file.opens
    && file.bitpix == Some(RequiredBitpix)
    && file.naxis == Some(RequiredNaxis)
    && file.naxis1.Some?
    && file.naxis2.Some?
    && (p.ExposePipeline? ==> file.telfocus.Some?)
  }

  /** The header keys a pipeline reads, in order. */
  function HeaderKeys(p: Pipeline): seq<string> {
    ["BITPIX", "NAXIS", "NAXIS1", "NAXIS2"] + (if p.ExposePipeline? then ["TELFOCUS"] else [])
  }

  /** The header fields a successful header check yields. */
  datatype Header = Header(naxis1: int, naxis2: int, telfocus: Option<real>)

  /** Open the file, check BITPIX and NAXIS, read NAXIS1 and NAXIS2 and, for an
      exposure, TELFOCUS, stopping at the first failure. */
  function ReadHeader(p: Pipeline, file: FitsFile): (r: Result<Header, Failure>)
    ensures r.Ok? <==> HeaderOk(p, file)
    ensures r.Ok? ==>
      r.value == Header(file.naxis1.value, file.naxis2.value,
                        if p.ExposePipeline? then file.telfocus else None)
    ensures r.Err? ==> Applies(p, r.error)
  {
    if !file.opens then Err(OpenFailed)
    else if file.bitpix.None? then Err(BitpixUnreadable)
    else if file.bitpix.value != RequiredBitpix then Err(BitpixWrong(file.bitpix.value))
    else if file.naxis.None? then Err(NaxisUnreadable)
    else if file.naxis.value != RequiredNaxis then Err(NaxisWrong(file.naxis.value))
    else if file.naxis1.None? then Err(Naxis1Unreadable)
    else if file.naxis2.None? then Err(Naxis2Unreadable)
    else if p.CalibratePipeline? then Ok(Header(file.naxis1.value, file.naxis2.value, None))
    else if file.telfocus.None? then Err(TelfocusUnreadable)
    else Ok(Header(file.naxis1.value, file.naxis2.value, file.telfocus))
  }

  /** The header key whose read, or whose value, produced a header failure;
      None for a failure that is not about a key. */
  function FailingKey(f: Failure): Option<string> {
    match f
    case BitpixUnreadable => Some("BITPIX")
    case BitpixWrong(_) => Some("BITPIX")
    case NaxisUnreadable => Some("NAXIS")
    case NaxisWrong(_) => Some("NAXIS")
    case Naxis1Unreadable => Some("NAXIS1")
    case Naxis2Unreadable => Some("NAXIS2")
    case TelfocusUnreadable => Some("TELFOCUS")
    case _ => None
  }

  /** How many header keys the header checks read before they stop: all of
      them on a good header, none when the open fails, and otherwise up to and
      including the key that failed. */
  function KeysAttempted(p: Pipeline, file: FitsFile): (n: nat)
    ensures n <= |HeaderKeys(p)|
    ensures HeaderOk(p, file) ==> n == |HeaderKeys(p)|
    ensures ReadHeader(p, file).Err? ==> (n == 0 <==> ReadHeader(p, file).error.OpenFailed?)
    ensures ReadHeader(p, file).Err? && 0 < n ==> FailingKey(ReadHeader(p, file).error) == Some(HeaderKeys(p)[n - 1])
  {
    if !file.opens then 0
    else if file.bitpix != Some(RequiredBitpix) then 1
    else if file.naxis != Some(RequiredNaxis) then 2
    else if file.naxis1.None? then 3
    else if file.naxis2.None? || p.CalibratePipeline? then 4
    else 5
  }

  /** One fits_read_key call per key, in order: the i-th call reads the i-th
      key, and a key is read exactly when it is in the list. */
  function KeyReads(keys: seq<string>): (t: seq<Event>)
    ensures |t| == |keys| && forall i :: 0 <= i < |keys| ==> t[i] == ReadKey(keys[i])
    ensures forall k :: ReadKey(k) in t <==> k in keys
  {
    if keys == [] then [] else [ReadKey(keys[0])] + KeyReads(keys[1..])
  }

  /** The calls the header checks make: open the file, then read the keys in
      order, stopping at the first key that fails. */
  function HeaderTrace(p: Pipeline, file: FitsFile): (t: seq<Event>)
    ensures |t| >= 1 && t[0] == OpenFile
    ensures forall i :: 1 <= i < |t| ==> i - 1 < |HeaderKeys(p)| && t[i] == ReadKey(HeaderKeys(p)[i - 1])
    ensures |t| == 1 + KeysAttempted(p, file)
    ensures HeaderOk(p, file) ==> |t| == 1 + |HeaderKeys(p)|
    ensures forall e :: e in t ==> e.OpenFile? || e.ReadKey?
  {
    [OpenFile] + KeyReads(HeaderKeys(p)[..KeysAttempted(p, file)])
  }

  /** A failed header check ends its calls at the failure: a file that does
      not open is the open call alone, and any other failure's last call reads
      the key that failed. */
  lemma HeaderTraceStopsAtFailure(p: Pipeline, file: FitsFile)
    requires ReadHeader(p, file).Err?
    ensures ReadHeader(p, file).error.OpenFailed? ==> HeaderTrace(p, file) == [OpenFile]
    ensures !ReadHeader(p, file).error.OpenFailed? ==>
      FailingKey(ReadHeader(p, file).error).Some? &&
      HeaderTrace(p, file)[|HeaderTrace(p, file)| - 1] == ReadKey(FailingKey(ReadHeader(p, file).error).value)
  {
    var t := HeaderTrace(p, file);
    var n := KeysAttempted(p, file);
    if 0 < n {
      assert t[n] == ReadKey(HeaderKeys(p)[n - 1]);
    }
  }

  /** A validated image and, for an exposure, the TELFOCUS value read from it. */
  datatype Loaded = Loaded(image: Image, telfocus: Option<real>)

  /** The outcome of the validation sequence and the calls it made. On success the
      pixel buffer is still held; the caller frees it. */
  datatype Load = Load(result: Result<Loaded, Failure>, trace: seq<Event>)

  /** After the header checks: allocate the pixel buffer, read the pixels and close
      the file. A read failure frees the buffer but leaves the file open. */
  function LoadPixels(h: Header, file: FitsFile, mem: Memory): (r: Load)
    requires file.Consistent() && h.naxis1 >= 1 && h.naxis2 >= 1
    requires file.naxis1 == Some(h.naxis1) && file.naxis2 == Some(h.naxis2)
    ensures r.result.Ok? ==>
      && file.pixels.Some?
      && r.result.value == Loaded(Image(h.naxis1, h.naxis2, file.pixels.value), h.telfocus)
      && r.result.value.image.WellFormed()
    ensures r.result.Err? ==> r.result.error in {AllocFailed, ReadFailed, CloseFailed}
    ensures AllocBuffer in r.trace <==> mem.bufferAllocates
    ensures multiset(r.trace)[AllocBuffer] <= 1
    ensures r.result.Err? ==> multiset(r.trace)[FreeBuffer] == multiset(r.trace)[AllocBuffer]
    ensures r.result.Ok? ==> multiset(r.trace)[AllocBuffer] == 1 && multiset(r.trace)[FreeBuffer] == 0
    ensures CloseFile in r.trace <==> mem.bufferAllocates && file.pixels.Some?
    ensures forall e :: e in r.trace ==> e in {AllocBuffer, ReadImage, CloseFile, FreeBuffer}
  {
    if !mem.bufferAllocates then Load(Err(AllocFailed), [])
    else if file.pixels.None? then Load(Err(ReadFailed), [AllocBuffer, ReadImage, FreeBuffer])
    else if !file.closes then Load(Err(CloseFailed), [AllocBuffer, ReadImage, CloseFile, FreeBuffer])
    else Load(Ok(Loaded(Image(h.naxis1, h.naxis2, file.pixels.value), h.telfocus)),
              [AllocBuffer, ReadImage, CloseFile])
  }

  /** The whole validation sequence of a stand-in pipeline. */
  function LoadImage(p: Pipeline, file: FitsFile, mem: Memory): (r: Load)
    requires file.Consistent()
    ensures r.result.Err? ==> Applies(p, r.result.error)
    // on success the image is the file's, and it is well formed
    ensures r.result.Ok? ==>
      && file.naxis1.Some? && file.naxis2.Some? && file.pixels.Some?
      && r.result.value.image == Image(file.naxis1.value, file.naxis2.value, file.pixels.value)
      && r.result.value.image.WellFormed()
      && (p.ExposePipeline? ==> file.telfocus.Some? && r.result.value.telfocus == file.telfocus)
    // the header calls come first
    ensures HeaderTrace(p, file) <= r.trace
    // the header calls come first, then the calls of the pixel stage
    ensures var header := ReadHeader(p, file);
      r.trace == HeaderTrace(p, file) + (if header.Ok? then LoadPixels(header.value, file, mem).trace else [])
    // only the FITS library and malloc are called
    ensures forall e :: e in r.trace ==> e in {OpenFile, AllocBuffer, ReadImage, CloseFile, FreeBuffer} || e.ReadKey?
  {
    var t := HeaderTrace(p, file);
    var header := ReadHeader(p, file);
    if header.Err? then Load(Err(header.error), t)
    else
      var pixels := LoadPixels(header.value, file, mem);
      Load(pixels.result, t + pixels.trace)
  }

  /** The pixel buffer is never allocated before every header check has passed; it
      is allocated at most once and, when the sequence fails, freed exactly once.
      On success it is still held. */
  lemma LoadImageBuffer(p: Pipeline, file: FitsFile, mem: Memory)
    requires file.Consistent()
    ensures var r := LoadImage(p, file, mem);
      && (AllocBuffer in r.trace <==> HeaderOk(p, file) && mem.bufferAllocates)
      && multiset(r.trace)[AllocBuffer] <= 1
      && (r.result.Err? ==> multiset(r.trace)[FreeBuffer] == multiset(r.trace)[AllocBuffer])
      && (r.result.Ok? ==> multiset(r.trace)[AllocBuffer] == 1 && multiset(r.trace)[FreeBuffer] == 0)
  {
    var r := LoadImage(p, file, mem);
    var t := HeaderTrace(p, file);
    assert AllocBuffer !in t && FreeBuffer !in t;
    var header := ReadHeader(p, file);
    if header.Ok? {
      var pixels := LoadPixels(header.value, file, mem);
      assert multiset(r.trace) == multiset(t) + multiset(pixels.trace);
    }
  }

  /** The file is closed only once the pixels were read: a failure at any earlier
      step leaves it open. */
  lemma LoadImageClosesAfterRead(p: Pipeline, file: FitsFile, mem: Memory)
    requires file.Consistent()
    ensures var r := LoadImage(p, file, mem);
      && (CloseFile in r.trace <==> HeaderOk(p, file) && mem.bufferAllocates && file.pixels.Some?)
  {
    var t := HeaderTrace(p, file);
    assert CloseFile !in t;
  }

  /** The first failure of a concatenation of steps. */
  lemma {:induction false} FirstFailureAppend(a: seq<Option<Failure>>, b: seq<Option<Failure>>)
    ensures FirstFailure(a + b) == if FirstFailure(a).Some? then FirstFailure(a) else FirstFailure(b)
  {
    if |a| > 0 {
      assert (a + b)[1..] == a[1..] + b;
      FirstFailureAppend(a[1..], b);
    } else {
      assert a + b == b;
    }
  }

  /** The header checks stop at the first failing step. */
  lemma ReadHeaderStopsAtFirstFailure(p: Pipeline, file: FitsFile)
    ensures var r := ReadHeader(p, file);
      && (r.Err? <==> FirstFailure(HeaderChecks(p, file)).Some?)
      && (r.Err? ==> r.error == FirstFailure(HeaderChecks(p, file)).value)
  {
    var checks := HeaderChecks(p, file);
    var r := ReadHeader(p, file);
    if r.Err? {
      var e := r.error;
      var i := StepIndex(p, e);
      assert checks[i] == Some(e);
      assert forall j :: 0 <= j < i ==> checks[j].None?;
      FirstFailureAt(checks, i);
    } else {
      assert forall j :: 0 <= j < |checks| ==> checks[j].None?;
    }
  }

  /** The validation sequence is ordered and stops at the first failing step: it
      fails exactly when some step fails, and then with the first such step. */
  lemma LoadImageStopsAtFirstFailure(p: Pipeline, file: FitsFile, mem: Memory)
    requires file.Consistent()
    ensures var r := LoadImage(p, file, mem);
      && (r.result.Err? <==> FirstFailure(Checks(p, file, mem)).Some?)
      && (r.result.Err? ==> r.result.error == FirstFailure(Checks(p, file, mem)).value)
  {
    var tail := [ Check(!mem.bufferAllocates, AllocFailed),
                  Check(file.pixels.None?, ReadFailed),
                  Check(!file.closes, CloseFailed) ];
    ReadHeaderStopsAtFirstFailure(p, file);
    FirstFailureAppend(HeaderChecks(p, file), tail);
    assert Checks(p, file, mem) == HeaderChecks(p, file) + tail;
    if FirstFailure(HeaderChecks(p, file)).None? {
      if !mem.bufferAllocates {
        FirstFailureAt(tail, 0);
      } else if file.pixels.None? {
        FirstFailureAt(tail, 1);
      } else if !file.closes {
        FirstFailureAt(tail, 2);
      }
    }
  }

  /** Every step of the validation sequence passes. */
  predicate Validates(p: Pipeline, file: FitsFile, mem: Memory) {
    HeaderOk(p, file) && mem.bufferAllocates && file.pixels.Some? && file.closes
  }

  /** The validation sequence succeeds exactly when every step passes. */
  lemma LoadImageSucceeds(p: Pipeline, file: FitsFile, mem: Memory)
    requires file.Consistent()
    ensures LoadImage(p, file, mem).result.Ok? <==> Validates(p, file, mem)
    ensures Validates(p, file, mem) <==> FirstFailure(Checks(p, file, mem)).None?
  {
    LoadImageStopsAtFirstFailure(p, file, mem);
  }
}

=== FILE: lifecycle.dfy ===
/** Bringing the library up and down: DpRt_Initialise and DpRt_Shutdown of
    c/dprt.c. In stand-in mode neither contacts the external engine. */
module Lifecycle {
  import opened Types

  /** Every call DpRt_Initialise can make, in order; it stops after the first
      that fails. `path` is the value of `dprt.path`, or "" when it cannot be
      read (no later call is made then). */
  function InitialiseCalls(path: string): seq<Event> {
    [JniInitialise, GetProperty(FakeProperty), GetProperty(PathProperty), EngineSetPath(path), EngineInit]
  }

  /** The number of calls DpRt_Initialise makes before it returns. */
  function InitialiseSteps(env: Environment): nat {
    var p := env.props;
    if !env.bindingInitialises then 1
    else if p.fake.None? || p.fake.value then 2
    else if p.path.None? then 3
    else if EngineFailed(env.engine.setPathStatus) then 4
    else 5
  }

  /** DpRt_Initialise. */
  function Initialise(env: Environment): Status {
    var p := env.props;
    var path := if p.path.Some? then p.path.value else "";
    var calls := InitialiseCalls(path);
    if !env.bindingInitialises then Status(false, BindingError, calls[..1])
    else if p.fake.None? then Status(false, BindingError, calls[..2])
    else if p.fake.value then Status(true, NoError, calls[..2])
    else if p.path.None? then Status(false, BindingError, calls[..3])
    else if EngineFailed(env.engine.setPathStatus) then
      Status(false, EngineError(env.engine.errCode, env.engine.errText), calls[..4])
    else if EngineFailed(env.engine.initStatus) then
      Status(false, EngineError(env.engine.errCode, env.engine.errText), calls)
    else Status(true, NoError, calls)
  }

  /** DpRt_Initialise succeeds exactly when the binding layer initialises,
      `dprt.fake` can be read, and in engine mode `dprt.path` can be read and
      neither dprt_set_path nor dprt_init reports an error. Its calls are a
      prefix of the full sequence, cut after the first failing one; stand-in
      mode stops after reading `dprt.fake` and never contacts the engine. An
      engine failure copies the engine's error into the error record. */
  lemma InitialiseOutcome(env: Environment)
    ensures var r := Initialise(env);
      var p := env.props;
      var path := if p.path.Some? then p.path.value else "";
      && (r.success <==>
            && env.bindingInitialises && p.fake.Some?
            && (p.fake.value ||
                (p.path.Some? && !EngineFailed(env.engine.setPathStatus) && !EngineFailed(env.engine.initStatus))))
      && (r.success ==> r.error == NoError)
      && r.trace == InitialiseCalls(path)[..InitialiseSteps(env)]
      && (p.fake == Some(true) ==> !ContactsEngine(r.trace))
      && (EngineInit in r.trace ==> EngineSetPath(path) in r.trace && !EngineFailed(env.engine.setPathStatus))
      && (!r.success && ContactsEngine(r.trace) ==> r.error == EngineError(env.engine.errCode, env.engine.errText))
  {
    var r := Initialise(env);
    var path := if env.props.path.Some? then env.props.path.value else "";
    var calls := InitialiseCalls(path);
    if InitialiseSteps(env) <= 3 {
      assert forall i :: 0 <= i < |r.trace| ==> !IsEngineCall(r.trace[i]);
    } else {
      assert IsEngineCall(r.trace[3]);
    }
    if EngineInit in r.trace {
      assert r.trace == calls;
    }
  }

  /** DpRt_Shutdown as written: it treats a dprt_close_down result other than
      TRUE as an error, the opposite of the convention every other engine call
      follows. */
  function Shutdown(env: Environment): Status {
    var p := env.props;
    if p.fake.None? then Status(false, BindingError, [GetProperty(FakeProperty)])
    else if p.fake.value then Status(true, NoError, [GetProperty(FakeProperty)])
    else
      var t := [GetProperty(FakeProperty), EngineCloseDown];
      if !EngineFailed(env.engine.closeDownStatus) then
        Status(false, EngineError(env.engine.errCode, env.engine.errText), t)
      else Status(true, NoError, t)
  }

  /** DpRt_Shutdown with the engine's convention: it fails exactly when
      dprt_close_down reports an error by returning TRUE. */
  function ShutdownCorrected(env: Environment): Status {
    var p := env.props;
    if p.fake.None? then Status(false, BindingError, [GetProperty(FakeProperty)])
    else if p.fake.value then Status(true, NoError, [GetProperty(FakeProperty)])
    else
      var t := [GetProperty(FakeProperty), EngineCloseDown];
      if EngineFailed(env.engine.closeDownStatus) then
        Status(false, EngineError(env.engine.errCode, env.engine.errText), t)
      else Status(true, NoError, t)
  }

  /** As written, DpRt_Shutdown in engine mode succeeds only when dprt_close_down
      reports an error: a clean close-down (FALSE) makes it fail, while the
      corrected shutdown succeeds. In stand-in mode both succeed without
      contacting the engine. */
  lemma ShutdownAsWritten(env: Environment)
    ensures var r := Shutdown(env);
      && (r.success <==> env.props.fake.Some? && (env.props.fake.value || EngineFailed(env.engine.closeDownStatus)))
      && (env.props.fake == Some(true) ==> r.success && !ContactsEngine(r.trace))
    ensures env.props.fake == Some(false) && env.engine.closeDownStatus == FALSE ==>
      !Shutdown(env).success && ShutdownCorrected(env).success
  {
    var r := Shutdown(env);
    assert forall i :: 0 <= i < |r.trace| && env.props.fake == Some(true) ==> !IsEngineCall(r.trace[i]);
  }

  /** The corrected shutdown succeeds exactly when `dprt.fake` can be read and, in
      engine mode, dprt_close_down does not report an error, which it then
      copies. It contacts the engine exactly in engine mode, and it agrees with
      DpRt_Initialise on what an engine failure is: in engine mode, with a path
      and a clean dprt_set_path, Initialise fails on an init status exactly when
      this shutdown fails on the same close-down status. */
  lemma ShutdownCorrectedOutcome(env: Environment)
    ensures var r := ShutdownCorrected(env);
      && (r.success <==> env.props.fake.Some? && (env.props.fake.value || !EngineFailed(env.engine.closeDownStatus)))
      && (r.success ==> r.error == NoError)
      && (ContactsEngine(r.trace) <==> env.props.fake == Some(false))
      && (!r.success && env.props.fake.Some? ==> r.error == EngineError(env.engine.errCode, env.engine.errText))
    ensures env.bindingInitialises && env.props.fake == Some(false) && env.props.path.Some?
            && !EngineFailed(env.engine.setPathStatus) && env.engine.initStatus == env.engine.closeDownStatus ==>
      (Initialise(env).success <==> ShutdownCorrected(env).success)
  {
    var r := ShutdownCorrected(env);
    if env.props.fake == Some(false) {
      assert IsEngineCall(r.trace[1]);
    } else {
      assert forall i :: 0 <= i < |r.trace| ==> !IsEngineCall(r.trace[i]);
    }
  }
}

=== FILE: seeing.dfy ===
/** The simulated seeing of the stand-in exposure pipeline. A frame whose name
    contains "telFocus" is a telescope focus run: its seeing grows with the
    square of the distance from the best focus, plus the atmospheric seeing and
    a random error. Any other frame gets a random seeing in tenths of an
    arcsecond between 0.0 and 4.9. rand() is an oracle: `draw` is the value it
    returns and `randMax` is RAND_MAX. */
module Seeing {
  import opened Types

  /** Column `i` of `s` starts an occurrence of `pat`. */
  predicate MatchesAt(s: string, pat: string, i: nat) {
    i + |pat| <= |s| && s[i..i + |pat|] == pat
  }

  /** The first occurrence of `pat` in `s` at or after position `from`, as strstr
      finds it. */
  function FindFrom(s: string, pat: string, from: nat): (r: Option<nat>)
    ensures r.Some? ==> from <= r.value && MatchesAt(s, pat, r.value)
    ensures r.Some? ==> forall i :: from <= i < r.value ==> !MatchesAt(s, pat, i)
    ensures r.None? <==> forall i :: from <= i ==> !MatchesAt(s, pat, i)
    decreases |s| - from
  {
    if from + |pat| > |s| then None
    else if s[from..from + |pat|] == pat then assert MatchesAt(s, pat, from); Some(from)
    else FindFrom(s, pat, from + 1)
  }

  /** strstr(s, pat) != NULL. */
  function Contains(s: string, pat: string): (found: bool)
    ensures found <==> exists i :: MatchesAt(s, pat, i)
  {
    FindFrom(s, pat, 0).Some?
  }

  /** The marker that names a telescope focus run. */
  const FocusMarker := "telFocus"

  /** The four focus-model parameters read from the configuration. */
  datatype FocusConfig = FocusConfig(
    bestFocus: real,
    fwhmPerMm: real,
    atmosphericSeeing: real,
    atmosphericVariation: real)

  /** The random error of a focus run: the atmospheric variation scaled by
      rand()/RAND_MAX. */
  function FocusError(cfg: FocusConfig, draw: nat, randMax: nat): real
    requires randMax > 0
  {
    cfg.atmosphericVariation * draw as real / randMax as real
  }

  /** The seeing of a focus run without its random error. */
  function FocusBase(cfg: FocusConfig, telfocus: real): real {
    var defocus := telfocus - cfg.bestFocus;
    defocus * defocus * (cfg.fwhmPerMm - cfg.atmosphericSeeing) + cfg.atmosphericSeeing
  }

  /** The seeing of a focus run. */
  function FocusSeeing(cfg: FocusConfig, telfocus: real, draw: nat, randMax: nat): real
    requires randMax > 0
  {
    FocusBase(cfg, telfocus) + FocusError(cfg, draw, randMax)
  }

  /** The seeing of any other frame: (rand() % 50) / 10. */
  function GuessSeeing(draw: nat): real {
    (draw % 50) as real / 10.0
  }

  /** The seeing the stand-in pipeline reports for the frame `input`, whose
      TELFOCUS keyword holds `telfocus`. */
  function SimulatedSeeing(input: string, telfocus: real, cfg: FocusConfig, draw: nat, randMax: nat): (seeing: real)
    requires randMax > 0
    ensures Contains(input, FocusMarker) ==> seeing == FocusSeeing(cfg, telfocus, draw, randMax)
    ensures !Contains(input, FocusMarker) ==> seeing == GuessSeeing(draw)
  {
    if FindFrom(input, FocusMarker, 0).Some? then FocusSeeing(cfg, telfocus, draw, randMax)
    else GuessSeeing(draw)
  }

  /** A guessed seeing is a whole number of tenths between 0.0 and 4.9 that
      depends only on the draw modulo 50. */
  lemma GuessSeeingRange(draw: nat)
    ensures 0.0 <= GuessSeeing(draw) <= 4.9
    ensures (GuessSeeing(draw) * 10.0).Floor as real == GuessSeeing(draw) * 10.0
    ensures GuessSeeing(draw + 50) == GuessSeeing(draw)
  {
    assert (draw + 50) % 50 == draw % 50;
  }

  /** With a draw in [0, RAND_MAX] and a non-negative variation, the random error
      of a focus run lies between 0 and the atmospheric variation. */
  lemma FocusErrorBounds(cfg: FocusConfig, draw: nat, randMax: nat)
    requires 0 < randMax && draw <= randMax && cfg.atmosphericVariation >= 0.0
    ensures 0.0 <= FocusError(cfg, draw, randMax) <= cfg.atmosphericVariation
  {
    var v, d, m := cfg.atmosphericVariation, draw as real, randMax as real;
    var q := v * d / m;
    assert q * m == v * d;
    assert v * d <= v * m;
    assert (v - q) * m >= 0.0;
  }

  /** At the best focus the seeing is the atmospheric seeing plus the error. */
  lemma FocusBaseAtBestFocus(cfg: FocusConfig)
    ensures FocusBase(cfg, cfg.bestFocus) == cfg.atmosphericSeeing
  {
  }

  /** The focus model is symmetric about the best focus. */
  lemma FocusBaseSymmetric(cfg: FocusConfig, offset: real)
    ensures FocusBase(cfg, cfg.bestFocus + offset) == FocusBase(cfg, cfg.bestFocus - offset)
  {
    assert (-offset) * (-offset) == offset * offset;
  }

  /** When the per-millimetre width exceeds the atmospheric seeing, a focus
      further from the best gives a seeing at least as large. */
  lemma FocusBaseGrowsWithDefocus(cfg: FocusConfig, near: real, far: real)
    requires cfg.fwhmPerMm >= cfg.atmosphericSeeing
    requires 0.0 <= near <= far
    ensures FocusBase(cfg, cfg.bestFocus + near) <= FocusBase(cfg, cfg.bestFocus + far)
  {
    var slope := cfg.fwhmPerMm - cfg.atmosphericSeeing;
    assert near * near <= far * far by {
      assert near * near <= near * far <= far * far;
    }
    assert near * near * slope <= far * far * slope;
  }

  /** Without atmospheric variation a focus run is deterministic: the draw does
      not matter. */
  lemma FocusSeeingWithoutVariation(cfg: FocusConfig, telfocus: real, draw1: nat, draw2: nat, randMax: nat)
    requires randMax > 0 && cfg.atmosphericVariation == 0.0
    ensures FocusSeeing(cfg, telfocus, draw1, randMax) == FocusSeeing(cfg, telfocus, draw2, randMax)
    ensures FocusSeeing(cfg, telfocus, draw1, randMax) == FocusBase(cfg, telfocus)
  {
  }
}

=== FILE: statistics.dfy ===
/** The statistics of the stand-in pipelines. A calibration frame yields the sum
    and the maximum of its pixels, scanned row by row with an abort poll after
    each row; an exposure frame yields its brightest pixel and where it is,
    scanned in row-major order with a strict `>` so that the first of several
    equal maxima wins. Each scan is a loop over the pixel sequence proved equal
    to a recursive reference definition. */
module Statistics {
  import opened Types
  import opened Abort

  /** The sum of the samples. */
  function Sum(s: seq<U16>): nat {
    if |s| == 0 then 0 else Sum(s[..|s| - 1]) + s[|s| - 1]
  }

  /** The largest sample, or 0 for no samples. */
  function Peak(s: seq<U16>): (m: U16)
    ensures forall i :: 0 <= i < |s| ==> s[i] <= m
  {
    if |s| == 0 then 0
    else
      var m := Peak(s[..|s| - 1]);
      if s[|s| - 1] > m then s[|s| - 1] else m
  }

  /** The maximum of a non-empty sequence is one of its samples. */
  lemma {:induction false} PeakOccurs(s: seq<U16>)
    requires |s| > 0
    ensures Peak(s) in s
  {
    if |s| > 1 {
      var init := s[..|s| - 1];
      PeakOccurs(init);
      if Peak(s) != s[|s| - 1] {
        var k :| 0 <= k < |init| && init[k] == Peak(init);
        assert s[k] == Peak(s);
      }
    }
  }

  /** The position of the first occurrence of `v`. */
  function FirstIndexOf(s: seq<U16>, v: U16): (k: nat)
    requires v in s
    ensures k < |s| && s[k] == v
    ensures forall m :: 0 <= m < k ==> s[m] != v
  {
    if s[0] == v then 0 else 1 + FirstIndexOf(s[1..], v)
  }

  lemma MulMonotone(a: int, b: int, c: int)
    requires 0 <= a && b <= c
    ensures a * b <= a * c
  {
    assert a * c - a * b == a * (c - b);
  }

  /** Row-major position (x, y) lies inside an naxis1-by-naxis2 grid. */
  lemma RowMajorBound(n1: int, n2: int, x: int, y: int)
    requires 0 <= x < n1 && 0 <= y < n2
    ensures 0 <= n1 * y + x < n1 * n2
  {
    MulMonotone(n1, y + 1, n2);
  }

  /** Division and remainder by the row length recover the column and row. */
  lemma RowMajorInverse(n1: int, x: int, y: int)
    requires 0 <= x < n1 && 0 <= y
    ensures (n1 * y + x) / n1 == y && (n1 * y + x) % n1 == x
  {
    var k := n1 * y + x;
    var q, r := k / n1, k % n1;
    assert n1 * q + r == n1 * y + x;
    if q > y {
      MulMonotone(n1, y + 1, q);
      assert false;
    } else if q < y {
      MulMonotone(n1, q + 1, y);
      assert false;
    }
  }

  /** A flat position inside an naxis1-by-naxis2 grid has its row inside the grid. */
  lemma RowInsideGrid(n1: int, n2: int, k: int)
    requires n1 >= 1 && 0 <= k < n1 * n2
    ensures 0 <= k / n1 < n2 && 0 <= k % n1 < n1
  {
    if k / n1 >= n2 {
      MulMonotone(n1, n2, k / n1);
      assert false;
    }
  }

  lemma MulSucc(a: int, b: int)
    ensures (a + 1) * b == a * b + b
  {
  }

  /** The total never exceeds the number of samples times the largest one. */
  lemma {:induction false} SumAtMostPeak(s: seq<U16>)
    ensures Sum(s) <= |s| * Peak(s)
  {
    if |s| > 0 {
      var init := s[..|s| - 1];
      SumAtMostPeak(init);
      MulMonotone(|init|, Peak(init), Peak(s));
      MulSucc(|init|, Peak(s));
    }
  }

  /** A well-formed image has at least one pixel. */
  lemma NonEmpty(im: Image)
    requires im.WellFormed()
    ensures |im.pixels| >= im.naxis1 >= 1
  {
    MulMonotone(im.naxis1, 1, im.naxis2);
  }

  /** Dividing by a positive count and multiplying back gives the total. */
  lemma QuotientTimes(total: int, count: int, q: real)
    requires 0 < count && q == total as real / count as real
    ensures q * count as real == total as real
  {
  }

  /** A quotient by a positive count of a total bounded by count*bound is
      bounded by bound. */
  lemma QuotientBound(total: int, count: int, bound: int)
    requires 0 <= total <= count * bound && 0 < count
    ensures 0.0 <= total as real / count as real <= bound as real
  {
    assert (count * bound) as real == count as real * bound as real;
  }

  /** The mean of the samples: their sum divided by their number. The mean
      counts of a frame are the mean of all naxis1*naxis2 pixels. */
  function Mean(s: seq<U16>): real
    requires |s| > 0
  {
    Sum(s) as real / |s| as real
  }

  /** The mean times the number of samples is the total. */
  lemma MeanIsAverage(s: seq<U16>)
    requires |s| > 0
    ensures Mean(s) * |s| as real == Sum(s) as real
  {
    QuotientTimes(Sum(s), |s|, Mean(s));
  }

  /** The mean lies between 0 and the largest sample. */
  lemma MeanBounds(s: seq<U16>)
    requires |s| > 0
    ensures 0.0 <= Mean(s) <= Peak(s) as real
  {
    SumAtMostPeak(s);
    QuotientBound(Sum(s), |s|, Peak(s));
  }

  /** The pixel in column `x` of row `y`. */
  function Pixel(im: Image, x: nat, y: nat): U16
    requires im.WellFormed() && x < im.naxis1 && y < im.naxis2
  {
    RowMajorBound(im.naxis1, im.naxis2, x, y);
    im.pixels[im.naxis1 * y + x]
  }

  /** Column `x1` of row `y1` comes before column `x2` of row `y2` in row-major order. */
  predicate Before(x1: nat, y1: nat, x2: nat, y2: nat) {
    y1 < y2 || (y1 == y2 && x1 < x2)
  }

  /** Row-major order is the order of flat positions. */
  lemma BeforeIsFlatOrder(n1: nat, x1: nat, y1: nat, x2: nat, y2: nat)
    requires x1 < n1 && x2 < n1 && Before(x1, y1, x2, y2)
    ensures n1 * y1 + x1 < n1 * y2 + x2
  {
    if y1 < y2 {
      MulMonotone(n1, y1 + 1, y2);
    }
  }

  /** The value of the brightest pixel and its column and row. */
  datatype Brightest = Brightest(counts: U16, x: nat, y: nat)

  /** The brightest pixel of a frame: no pixel is brighter, and every pixel
      before it in row-major order is strictly dimmer, so of several equal maxima
      the first one is reported. */
  function BrightestOf(im: Image): (b: Brightest)
    requires im.WellFormed()
    ensures b.x < im.naxis1 && b.y < im.naxis2
    ensures b.counts == Peak(im.pixels) == Pixel(im, b.x, b.y)
    ensures forall x: nat, y: nat :: x < im.naxis1 && y < im.naxis2 ==> Pixel(im, x, y) <= b.counts
    ensures forall x: nat, y: nat :: x < im.naxis1 && y < im.naxis2 && Before(x, y, b.x, b.y) ==>
              Pixel(im, x, y) < b.counts
  {
    NonEmpty(im);
    PeakOccurs(im.pixels);
    var k := FirstIndexOf(im.pixels, Peak(im.pixels));
    RowInsideGrid(im.naxis1, im.naxis2, k);
    FirstPeakOnGrid(im, k);
    Brightest(Peak(im.pixels), k % im.naxis1, k / im.naxis1)
  }

  /** A frame whose pixels are all 0 has peak and mean 0, and its brightest
      pixel is reported as counts 0 at column 0 of row 0. */
  lemma DarkFrame(im: Image)
    requires im.WellFormed()
    requires forall i :: 0 <= i < |im.pixels| ==> im.pixels[i] == 0
    ensures Peak(im.pixels) == 0 && Mean(im.pixels) == 0.0
    ensures BrightestOf(im) == Brightest(0, 0, 0)
  {
    NonEmpty(im);
    PeakOccurs(im.pixels);
    MeanBounds(im.pixels);
  }

  /** The 2x2 frame used by the examples below: two equal maxima in column 1. */
  const TiedFrame := Image(2, 2, [1, 4, 3, 4])

  /** The tied frame has peak 4 and mean 3. */
  lemma TiedFrameStatistics()
    ensures Peak(TiedFrame.pixels) == 4 && Mean(TiedFrame.pixels) == 3.0
  {
    var s1, s2, s3: seq<U16> := [1], [1, 4], [1, 4, 3];
    assert s2[..1] == s1 && s3[..2] == s2 && TiedFrame.pixels[..3] == s3;
    assert Sum(s1) == 1 && Sum(s2) == 5 && Sum(s3) == 8;
    assert Sum(TiedFrame.pixels) == 12;
    PeakOccurs(TiedFrame.pixels);
  }

  /** Of the tied frame's two maxima, the first in row-major order is reported:
      column 1 of row 0, not column 1 of row 1. */
  lemma TiedFrameBrightest()
    ensures BrightestOf(TiedFrame) == Brightest(4, 1, 0)
  {
    TiedFrameStatistics();
    var im := TiedFrame;
    assert Pixel(im, 0, 0) == 1 && Pixel(im, 1, 0) == 4 && Pixel(im, 0, 1) == 3;
  }

  /** The grid view of the first occurrence of the maximum. */
  lemma FirstPeakOnGrid(im: Image, k: nat)
    requires im.WellFormed() && k < |im.pixels|
    requires im.pixels[k] == Peak(im.pixels) && forall m :: 0 <= m < k ==> im.pixels[m] != im.pixels[k]
    ensures k % im.naxis1 < im.naxis1 && k / im.naxis1 < im.naxis2
    ensures Pixel(im, k % im.naxis1, k / im.naxis1) == Peak(im.pixels)
    ensures forall x: nat, y: nat :: x < im.naxis1 && y < im.naxis2 ==> Pixel(im, x, y) <= Peak(im.pixels)
    ensures forall x: nat, y: nat :: x < im.naxis1 && y < im.naxis2 && Before(x, y, k % im.naxis1, k / im.naxis1) ==>
              Pixel(im, x, y) < Peak(im.pixels)
  {
    var n1 := im.naxis1;
    RowInsideGrid(n1, im.naxis2, k);
    var col, row := k % n1, k / n1;
    assert n1 * row + col == k;
    forall x: nat, y: nat | x < n1 && y < im.naxis2
      ensures Pixel(im, x, y) <= Peak(im.pixels)
    {
      RowMajorBound(n1, im.naxis2, x, y);
    }
    forall x: nat, y: nat | x < n1 && y < im.naxis2 && Before(x, y, col, row)
      ensures Pixel(im, x, y) < Peak(im.pixels)
    {
      BeforeIsFlatOrder(n1, x, y, col, row);
    }
  }

  /** A position holding the maximum with only smaller values before it is the
      position of the first maximum. */
  lemma FirstPeakUnique(s: seq<U16>, k: nat)
    requires k < |s| && s[k] == Peak(s)
    requires forall m :: 0 <= m < k ==> s[m] < s[k]
    ensures k == FirstIndexOf(s, Peak(s))
  {
  }

  /** The outcome of the calibration scan. */
  datatype RowScan = Finished(total: nat, peak: U16) | AbortedAfterRow(row: nat)

  /** Extending a prefix by one sample extends its sum and maximum. */
  lemma PrefixStep(s: seq<U16>, k: nat)
    requires k < |s|
    ensures Sum(s[..k + 1]) == Sum(s[..k]) + s[k]
    ensures Peak(s[..k + 1]) == if s[k] > Peak(s[..k]) then s[k] else Peak(s[..k])
  {
    assert s[..k + 1][..k] == s[..k];
  }

  /** The flat position of the first pixel of row `j`, naxis1*j, built up one row
      at a time so that the scans need no multiplication. */
  function RowStart(n1: nat, j: nat): nat {
    if j == 0 then 0 else RowStart(n1, j - 1) + n1
  }

  lemma {:induction false} RowStartIsProduct(n1: nat, j: nat)
    ensures RowStart(n1, j) == n1 * j
  {
    if j > 0 {
      RowStartIsProduct(n1, j - 1);
      assert n1 * (j - 1) + n1 == n1 * j;
    }
  }

  lemma {:induction false} RowStartMonotone(n1: nat, j: nat, n2: nat)
    requires j < n2
    ensures RowStart(n1, j) + n1 <= RowStart(n1, n2)
    decreases n2 - j
  {
    if j + 1 < n2 {
      RowStartMonotone(n1, j + 1, n2);
    }
  }

  /** The pixel count of a well-formed image is naxis2 rows of naxis1 pixels. */
  lemma PixelCount(im: Image)
    requires im.WellFormed()
    ensures |im.pixels| == RowStart(im.naxis1, im.naxis2)
  {
    RowStartIsProduct(im.naxis1, im.naxis2);
  }

  /** One row of the calibration scan: adds the `n1` pixels from `start` on to
      the running total and maximum. */
  method AccumulateRow(px: seq<U16>, start: nat, n1: nat, total0: nat, peak0: U16)
    returns (total: nat, peak: U16)
    requires start + n1 <= |px|
    requires total0 == Sum(px[..start]) && peak0 == Peak(px[..start])
    ensures total == Sum(px[..start + n1]) && peak == Peak(px[..start + n1])
  {
    total, peak := total0, peak0;
    var i: nat := 0;
    while i < n1
      invariant i <= n1
      invariant total == Sum(px[..start + i]) && peak == Peak(px[..start + i])
    {
      var value := px[start + i];
      PrefixStep(px, start + i);
      total := total + value;
      if value > peak {
        peak := value;
      }
      i := i + 1;
    }
  }

  /** The calibration scan of Calibrate_Reduce_Fake: rows in increasing order,
      columns in increasing order within a row, a running total and a running
      maximum, and a poll of the abort flag after every row. Poll 0 is the one
      before the scan; the poll after row j is poll j + 1. */
  method ScanCalibration(im: Image, aborts: seq<bool>) returns (r: RowScan, polls: nat)
    requires im.WellFormed()
    ensures polls == if r.Finished? then im.naxis2 else r.row + 1
    ensures r.Finished? <==> FirstAbort(aborts, 1, im.naxis2).None?
    ensures r.Finished? ==> r.total == Sum(im.pixels) && r.peak == Peak(im.pixels)
    ensures r.AbortedAfterRow? ==> r.row < im.naxis2 && FirstAbort(aborts, 1, im.naxis2) == Some(r.row + 1)
  {
    var n1: nat, n2: nat, px := im.naxis1, im.naxis2, im.pixels;
    PixelCount(im);
    var total: nat := 0;
    var peak: U16 := 0;
    var j: nat := 0;
    var start: nat := 0;  // naxis1 * j
    polls := 0;
    while j < n2
      invariant j <= n2 && start == RowStart(n1, j) && start <= |px|
      invariant total == Sum(px[..start]) && peak == Peak(px[..start])
      invariant FirstAbort(aborts, 1, j).None?
      invariant polls == j
    {
      RowStartMonotone(n1, j, n2);
      total, peak := AccumulateRow(px, start, n1, total, peak);
      FirstAbortExtend(aborts, 1, j);
      polls := polls + 1;
      if Poll(aborts, j + 1) {
        assert FirstAbort(aborts, 1, j + 1) == Some(j + 1);
        FirstAbortWiden(aborts, 1, j + 1, n2);
        return AbortedAfterRow(j), polls;
      }
      j, start := j + 1, start + n1;
    }
    assert px[..start] == px;
    return Finished(total, peak), polls;
  }

  /** The running state of the exposure scan over the first `k` samples: `counts`
      is their maximum and `pos` the first place it occurs (0 before any sample). */
  ghost predicate Leading(s: seq<U16>, k: nat, counts: U16, pos: nat) {
    && k <= |s|
    && counts == Peak(s[..k])
    && (k == 0 ==> pos == 0 && counts == 0)
    && (k > 0 ==> pos < k && s[pos] == counts && forall m :: 0 <= m < pos ==> s[m] < counts)
  }

  /** One step of the exposure scan keeps the running state. */
  lemma LeadingStep(s: seq<U16>, k: nat, counts: U16, pos: nat)
    requires k < |s| && Leading(s, k, counts, pos)
    ensures s[k] > counts ==> Leading(s, k + 1, s[k], k)
    ensures s[k] <= counts ==> Leading(s, k + 1, counts, pos)
  {
    PrefixStep(s, k);
    if s[k] > counts {
      forall m | 0 <= m < k
        ensures s[m] < s[k]
      {
        assert s[..k][m] == s[m];
      }
    }
  }

  /** One row of the exposure scan: the pixels `n1` from `start` on, which form
      row `row`, replace the running maximum only when strictly greater. */
  method BrightestInRow(px: seq<U16>, start: nat, n1: nat, row: nat,
                        counts0: U16, x0: nat, y0: nat, ghost pos0: nat)
    returns (counts: U16, x: nat, y: nat, ghost pos: nat)
    requires start + n1 <= |px|
    requires Leading(px, start, counts0, pos0)
    ensures counts == Peak(px[..start + n1])
    ensures (counts, x, y) == (counts0, x0, y0) || (x < n1 && y == row)
    ensures Leading(px, start + n1, counts, pos)
    ensures (counts, x, y, pos) == (counts0, x0, y0, pos0) || (x < n1 && y == row && pos == start + x)
  {
    counts, x, y, pos := counts0, x0, y0, pos0;
    var i: nat := 0;
    while i < n1
      invariant i <= n1
      invariant Leading(px, start + i, counts, pos)
      invariant (counts, x, y, pos) == (counts0, x0, y0, pos0) || (x < n1 && y == row && pos == start + x)
    {
      var value := px[start + i];
      LeadingStep(px, start + i, counts, pos);
      if value > counts {
        counts := value;
        x, y := i, row;
        pos := start + i;
      }
      i := i + 1;
    }
  }

  /** The exposure scan of Expose_Reduce_Fake: the brightest pixel and its column
      and row, replacing the running maximum only on a strictly greater value. */
  method ScanExposure(im: Image) returns (b: Brightest)
    requires im.WellFormed()
    ensures b == BrightestOf(im)
  {
    var n1: nat, n2: nat, px := im.naxis1, im.naxis2, im.pixels;
    PixelCount(im);
    var counts: U16 := 0;
    var x: nat, y: nat := 0, 0;
    ghost var pos: nat := 0;
    var j: nat := 0;
    var start: nat := 0;  // naxis1 * j
    while j < n2
      invariant j <= n2 && start == RowStart(n1, j) && start <= |px|
      invariant x < n1 && y < n2 && pos == RowStart(n1, y) + x
      invariant Leading(px, start, counts, pos)
    {
      RowStartMonotone(n1, j, n2);
      counts, x, y, pos := BrightestInRow(px, start, n1, j, counts, x, y, pos);
      j, start := j + 1, start + n1;
    }
    assert px[..start] == px;
    LeadingIsBrightest(im, counts, x, y, pos);
    b := Brightest(counts, x, y);
  }

  /** A running state over the whole frame, held at column `x` of row `y`, is
      the brightest pixel. */
  lemma LeadingIsBrightest(im: Image, counts: U16, x: nat, y: nat, pos: nat)
    requires im.WellFormed() && Leading(im.pixels, |im.pixels|, counts, pos)
    requires x < im.naxis1 && y < im.naxis2 && pos == RowStart(im.naxis1, y) + x
    ensures Brightest(counts, x, y) == BrightestOf(im)
  {
    NonEmpty(im);
    assert im.pixels[..|im.pixels|] == im.pixels;
    FirstPeakUnique(im.pixels, pos);
    RowStartIsProduct(im.naxis1, y);
    RowMajorInverse(im.naxis1, x, y);
  }
}

=== FILE: types.dfy ===
/** Types shared by the model of the real-time data reduction front end (c/dprt.c).

    Everything the C code obtains from a collaborator it cannot see -- the
    configuration property store, the CFITSIO library, malloc, the abort flag,
    rand() and the external reduction engine -- is an oracle bundled in an
    `Environment`. Every public operation returns an `Outcome`, or a `Status`
    when it has no out-parameters: the C return value, the final values of its
    out-parameters, the shared error record and the trace of observable calls
    it made, in order.
 */
module Types {

  datatype Option<+T> = None | Some(value: T)

  datatype Result<+T, +E> = Ok(value: T) | Err(error: E)

  /** C truth values. The engine's routines report an error by returning TRUE. */
  const TRUE: int := 1
  const FALSE: int := 0

  /** An unsigned 16-bit pixel sample, the TUSHORT type the image is read as. */
  type U16 = x: int | 0 <= x < 0x1_0000

  /** Names of the configuration properties the core reads. */
  const FakeProperty := "dprt.fake"
  const FullReductionProperty := "dprt.full_reduction"
  const MakeMasterBiasProperty := "dprt.make_master_bias"
  const MakeMasterFlatProperty := "dprt.make_master_flat"
  const PathProperty := "dprt.path"
  const BestFocusProperty := "dprt.telfocus.best_focus"
  const FwhmPerMmProperty := "dprt.telfocus.fwhm_per_mm"
  const AtmosphericSeeingProperty := "dprt.telfocus.atmospheric_seeing"
  const AtmosphericVariationProperty := "dprt.telfocus.atmospheric_variation"

  /** The engine's routines return TRUE to report an error. */
  predicate EngineFailed(status: int) {
    status == TRUE
  }

  /** The run modes the engine's process routine is called with. */
  datatype RunMode = QuickReduction | FullReduction | MakeBias | MakeFlat

  /** An observable call made by an operation. */
  datatype Event =
    | JniInitialise                    // DpRt_JNI_Initialise
    | GetProperty(name: string)        // a property-store lookup
    | ResetAbort                       // DpRt_JNI_Set_Abort(FALSE)
    | PollAbort                        // DpRt_JNI_Get_Abort
    | OpenFile                         // fits_open_file
    | ReadKey(key: string)             // fits_read_key
    | AllocBuffer                      // malloc of the pixel buffer, when it returns a buffer
    | ReadImage                        // fits_read_img
    | CloseFile                        // fits_close_file
    | FreeBuffer                       // free of the pixel buffer
    | EngineSetPath(path: string)      // dprt_set_path
    | EngineInit                       // dprt_init
    | EngineProcess(target: string, mode: RunMode)  // dprt_process
    | EngineCloseDown                  // dprt_close_down

  predicate IsEngineCall(e: Event) {
    e.EngineSetPath? || e.EngineInit? || e.EngineProcess? || e.EngineCloseDown?
  }

  predicate IsFileCall(e: Event) {
    e.OpenFile? || e.ReadKey? || e.ReadImage? || e.CloseFile?
  }

  /** True iff some call in the trace goes to the external engine. */
  predicate ContactsEngine(trace: seq<Event>) {
    exists i :: 0 <= i < |trace| && IsEngineCall(trace[i])
  }

  /** True iff some call in the trace goes to the FITS library. */
  predicate TouchesFile(trace: seq<Event>) {
    exists i :: 0 <= i < |trace| && IsFileCall(trace[i])
  }

  /** The shared error number and string after an operation. Every public
      operation starts by resetting them to (0, ""), which is `NoError`. A
      copied engine error is kept apart from `NoError` even when the engine
      published (0, ""). */
  datatype ErrorRecord =
    | NoError
      // a number set by the stand-in pipeline; its formatted text is not modelled
    | FakeError(code: int)
      // the engine's own dprt_err_int and dprt_err_str, copied
    | EngineError(code: int, text: string)
      // whatever a failing property getter or binding initialiser leaves
    | BindingError

  /** The configuration property store: `None` is a property that cannot be read. */
  datatype Properties = Properties(
    fake: Option<bool>,
    fullReduction: Option<bool>,
    makeMasterBias: Option<bool>,
    makeMasterFlat: Option<bool>,
    path: Option<string>,
    bestFocus: Option<real>,
    fwhmPerMm: Option<real>,
    atmosphericSeeing: Option<real>,
    atmosphericVariation: Option<real>)

  /** What the FITS library answers for the one file an operation opens.
      A `None` key could not be read; `pixels` is `None` when fits_read_img fails. */
  datatype FitsFile = FitsFile(
    opens: bool,
    bitpix: Option<int>,
    naxis: Option<int>,
    naxis1: Option<int>,
    naxis2: Option<int>,
    telfocus: Option<real>,
    pixels: Option<seq<U16>>,
    closes: bool)
  {
    /** The axis lengths are at least 1 (the C code has no guard for smaller ones)
        and fits_read_img fills exactly NAXIS1*NAXIS2 samples. */
    predicate Consistent() {
      && (naxis1.Some? ==> naxis1.value >= 1)
      && (naxis2.Some? ==> naxis2.value >= 1)
      && (pixels.Some? && naxis1.Some? && naxis2.Some? ==>
            |pixels.value| == naxis1.value * naxis2.value)
    }
  }

  /** The outcomes of the two mallocs an operation makes. */
  datatype Memory = Memory(bufferAllocates: bool, nameAllocates: bool)

  /** What dprt_process does with the output filename out-parameter it is handed: it
      may leave it alone or store a filename (`None` is NULL) in it. */
  datatype FilenameWrite = Untouched | Written(name: Option<string>)

  /** The values dprt_process leaves in its out-parameters, and its return status. */
  datatype ProcessReply = ProcessReply(
    status: int,
    outputFilename: FilenameWrite,
    mean: real,
    seeing: real,
    xPix: real,
    yPix: real,
    counts: real,
    saturated: int,
    photometricity: real,
    skyBrightness: real)

  /** The external reduction engine: the status each routine returns, the reply of
      dprt_process, and the error number and string it publishes. */
  datatype Engine = Engine(
    setPathStatus: int,
    initStatus: int,
    closeDownStatus: int,
    process: ProcessReply,
    errCode: int,
    errText: string)

  /** Every collaborator of the core, as an oracle.
      `aborts[k]` answers the k-th poll of the abort flag after the operation reset it;
      `randomDraw` is the value rand() returns and `randMax` is RAND_MAX. */
  datatype Environment = Environment(
    bindingInitialises: bool,
    props: Properties,
    file: FitsFile,
    memory: Memory,
    aborts: seq<bool>,
    randomDraw: nat,
    randMax: nat,
    engine: Engine)
  {
    /** What the collaborators guarantee: a consistent image file, and a value of
        rand() in [0, RAND_MAX]. */
    predicate Valid() {
      file.Consistent() && 0 < randMax && randomDraw <= randMax
    }
  }

  /** A row-major image: `pixels[naxis1 * y + x]` is column x of row y. */
  datatype Image = Image(naxis1: int, naxis2: int, pixels: seq<U16>) {
    predicate WellFormed() {
      naxis1 >= 1 && naxis2 >= 1 && |pixels| == naxis1 * naxis2
    }
  }

  /** The final values of an operation's out-parameters, its return value,
      the error record it leaves and the calls it made. */
  datatype Outcome<+O> = Outcome(success: bool, out: O, error: ErrorRecord, trace: seq<Event>)

  /** The result of an operation without out-parameters. */
  datatype Status = Status(success: bool, error: ErrorRecord, trace: seq<Event>)

  /** The out-parameters of DpRt_Calibrate_Reduce; `None` is a NULL filename. */
  datatype CalibrateOut = CalibrateOut(outputFilename: Option<string>, meanCounts: real, peakCounts: real)

  /** The out-parameters of DpRt_Expose_Reduce; `None` is a NULL filename. */
  datatype ExposeOut = ExposeOut(
    outputFilename: Option<string>,
    seeing: real,
    counts: real,
    xPix: real,
    yPix: real,
    photometricity: real,
    skyBrightness: real,
    saturated: int)

  /** The cleared calibration outputs. */
  const CalibrateCleared := CalibrateOut(None, 0.0, 0.0)

  /** The cleared exposure outputs. */
  const ExposeCleared := ExposeOut(None, 0.0, 0.0, 0.0, 0.0, 0.0, 0.0, FALSE)
}
